=== FILE: README.md ===
# Registry client model

A Dafny model of the Docker registry client in `client.go` and the properties it keeps. The
client talks to a registry speaking the Docker Registry HTTP API V2. The model covers:

- **Construction** (`Negotiate.NewClient`). One unauthenticated probe of `<url>/v2/` decides
  the authentication mode. A 200 means the registry is open. A 401 with a
  `Bearer realm="…",service="…"` challenge means bearer tokens from the issuer
  `<realm>?service=<service>`. A 401 whose challenge starts with "basic" in any case means HTTP
  Basic credentials. Everything else is an error.
- **The challenge pattern** `^Bearer realm="(http.+)",service="(.+)"` (`Challenge.Match`). It is
  written out as a search with Go's leftmost-first, greedy semantics. An independent predicate,
  `Challenge.IsMatch`, says which captures the pattern admits. `Match` returns the longest
  captures `IsMatch` admits (`Challenge.MatchIsGreedy`), and it returns None exactly when
  `IsMatch` admits none (`Challenge.NoMatchMeansNoCaptures`).
- **The token cache** (`Tokens.GetToken`). A cached token for a scope is re-validated and then
  reused. Otherwise a new one is asked from the issuer with the client's credentials. A failure
  yields "" and leaves the cache alone.
- **The call primitive** (`Calls.Call`). It attaches the bearer token only when there is an
  issuer. Any status but 200 is an error. For a deletion, it then sends a DELETE of the manifest
  at the digest the GET reported, on the path as the code rewrites it (see Findings).
- **The registry operations** built on it: `QueryRepositories`, `QueryTags`, `TagInfo` and
  `DeleteTag`, with their paths and token scopes (module `Paths`).
- **The retention planner** `Clean(keepTags…)` (`Retention.Clean`). Every listed tag is filed
  under its manifest digest. A digest none of whose tags is kept is deleted once, through the
  first tag filed under it. A variant that deletes such a digest in every repository listing
  it (`Retention.CleanEveryRepository`) is the corrected half of a finding.

Every reply the client would receive is an input to the operation that receives it. Each
operation returns its result, the token cache afterwards and, where it matters, the requests
it sent. The project is made of these modules:

- `Wrappers`: `Option`, `Result` and `Outcome`.
- `Text`: Go's `strings.ToLower` and `strings.Split(…)[0]` on rune sequences. The
  `strings.HasPrefix` tests are Dafny's sequence prefix `<=`.
- `Challenge`: the bearer challenge pattern.
- `Http`: requests and replies.
- `Negotiate`: client construction.
- `Tokens`: the token cache.
- `Paths`: paths and scopes.
- `Calls`: `call` and the four registry operations.
- `Retention`: `Clean`.

A group's deletion goes through `v[0]` (client.go:138): the first tag filed under the digest in
catalog and listing order. The DELETE names that tag's repository only, as long as no
`/manifests/` starts inside the repository name (see Findings).

## Model

| member | source | states |
|---|---|---|
| Negotiate.NewClient | client.go:37-63 | a built client keeps the url and credentials, starts with an empty token cache, never has both Basic credentials and a token issuer, and exists only if the probe was answered with 200 or 401 |
| Negotiate.ProbeFailureIsReturned | client.go:37-40 | a transport error on the probe is returned as the construction error, unchanged |
| Negotiate.OpenRegistry | client.go:41-43 | a 200 probe gives a client with no issuer and no Basic credentials, whatever the challenge header says |
| Negotiate.UnexpectedStatus | client.go:60-61 | every probe status other than 200 and 401 is refused with that status |
| Negotiate.BearerChallenge | client.go:44-50 | a well-formed challenge `Bearer realm="R",service="S"` gives exactly the issuer `R?service=S`, with no Basic credentials and an empty cache |
| Negotiate.BearerPrefixed | client.go:46-53 | a challenge starting with "Bearer" succeeds iff some captures match the pattern; on success the client is not Basic and its issuer is `realm?service=service` for the captures Go reports (the longest realm, then the longest service); on failure the error is "no auth service" |
| Negotiate.TrailingScopeInIssuer | client.go:47-49 | the challenge `Bearer realm="http://a",service="b",scope="c"` gives the issuer `http://a?service=b",scope="c`: the trailing scope parameter, quotes included, ends up in the issuer URL |
| Negotiate.NonBearerChallenge | client.go:54-59 | a challenge not starting with "Bearer" gives a Basic client iff its lower-cased form starts with "basic", and "no auth service" otherwise |
| Negotiate.BasicIgnoresCase | client.go:54 | `basic`, `Basic`, `BASIC` and every other mix of cases pass the Basic test |
| Challenge.Match | client.go:47-48 | a reported pair of captures is a match of the pattern |
| Challenge.MatchIsGreedy | client.go:47-48 | whenever the pattern can match, a match is reported; its realm is at least as long as any matching realm, and its service at least as long as any service matching with that realm |
| Challenge.NoMatchMeansNoCaptures | client.go:48-53 | the pattern reports no match iff no captures match it |
| Challenge.WellFormedChallenge | client.go:47-49 | a header `Bearer realm="R",service="S"` followed by quote-free text yields exactly the captures R and S, when R and S hold no quote and fit the groups |
| Challenge.TrailingScopeCaptures | client.go:47-48 | the header `Bearer realm="http://a",service="b",scope="c"` yields the realm `http://a` and the service `b",scope="c` |
| Challenge.ServiceRunsToLastQuote | client.go:47 | in a header without newlines nothing after the matched text holds a quote, so a trailing `,scope="…"` is swallowed by the service capture |
| Tokens.GetToken | client.go:175-196 | only the entry for the requested scope can change, entries are never removed, a changed cache maps the scope to the returned token, and a non-empty returned token is the cached one |
| Tokens.ValidCachedTokenIsReused | client.go:176-181 | a cached token that validates with 200 is returned, the cache is unchanged and the issuer is not contacted |
| Tokens.IssuerAskedOnce | client.go:176-183 | otherwise the issuer is asked exactly once, last, and right after the validation probe when a token was cached |
| Tokens.FailedIssuerLeavesCache | client.go:183-191 | a failed token request (transport error or non-200) yields "" and leaves the whole cache unchanged, stale entry included |
| Tokens.NewTokenIsStored | client.go:193-195 | a 200 token reply is stored under the scope, overwriting an older entry, and returned; no other entry changes |
| Tokens.SecondCallReuses | client.go:175-196 | after a call that leaves a token for the scope, a second call whose validation passes reuses it, and the issuer was asked at most once over both calls |
| Tokens.RejectedTokenIsRefreshed | client.go:176-195 | a cached token that fails validation is replaced by the issuer's new one in the same call, after one validation probe and one token request |
| Tokens.IssuerURLShape | client.go:49 | a bearer client's token request goes to `<realm>?service=<service>&scope=<scope>` with the client's Basic credentials |
| Calls.Call | client.go:145-173 | without an issuer the cache is untouched; only the scope's entry can change; the result is a success iff the GET got 200 and, for a deletion, the DELETE got a reply and the path holds `/manifests/`; a deletion whose DELETE got a reply on a path without `/manifests/` ends in the `parts[1]` panic; every registry GET goes to `<url><path>`, and a call that is not a deletion sends no other registry request; every other request is the `/v2/` validation probe or the token request for the scope; the GET of `<url><path>` is sent, with the scope's bearer token when there is an issuer; with an issuer, the cache afterwards is the one `getToken` leaves for the scope |
| Calls.AuthorizeKeepsToItself | client.go:147-148 | fetching the bearer token changes only the scope's cache entry, changes nothing without an issuer, and sends only the validation probe and the token request, never a registry request |
| Calls.TokenRequestsAreNotRegistryCalls | client.go:146 | the token cache's requests are GETs without the manifest `Accept` header, so they are told apart from the registry requests |
| Calls.RegistryRequestHeaders | client.go:146-150 | a registry request carries a Bearer header iff the client has an issuer, holding the token the cache handed out, and carries Basic credentials iff the client is a Basic client |
| Calls.NoIssuerNoBearer | client.go:147-149 | a client without issuer sends no Bearer header, leaves its cache alone, and a Basic client sends its credentials on every request |
| Calls.DeleteOnlyAfterSuccessfulGet | client.go:155-162 | a DELETE is sent iff a deletion was asked for and the GET returned 200, and it goes to `<url>` followed by the text before the first `/manifests/` of the path, then `/manifests/<reported digest>` |
| Calls.QueryRepositories | client.go:66-75 | the catalog call succeeds iff the GET got 200, and then returns the decoded repositories; its registry requests are GETs of `<url>/v2/_catalog`, its token traffic and the only cache entry that can change are for `registry:catalog:*`; that GET is sent, with the bearer token for `registry:catalog:*` when there is an issuer, and with an issuer the cache afterwards is the one `getToken` leaves for that scope |
| Calls.QueryTags | client.go:77-88 | the tag listing succeeds iff the GET got 200, and then returns the decoded tags; its registry requests are GETs of `<url>/v2/<repo>/tags/list`, its token traffic and the only cache entry that can change are for `repository:<repo>:*`; that GET is sent, with the bearer token for `repository:<repo>:*` when there is an issuer, and with an issuer the cache afterwards is the one `getToken` leaves for that scope |
| Calls.TagInfo | client.go:90-99 | the digest lookup never fails: it is the reported digest on a 200 and "" otherwise; its registry requests are GETs of `<url>/v2/<repo>/manifests/<tag>`, its token traffic and the only cache entry that can change are for `repository:<repo>:*`; that GET is sent, with the bearer token for `repository:<repo>:*` when there is an issuer, and with an issuer the cache afterwards is the one `getToken` leaves for that scope |
| Calls.DeleteTagTargetsDigest | client.go:101-104 | deleting a tag GETs `<url>/v2/<repo>/manifests/<tag>` with the repository's bearer token when there is an issuer, leaves the cache as `getToken` leaves it for `repository:<repo>:*`, and sends a DELETE iff that GET returned 200; the call never reaches the `parts[1]` panic; the DELETE targets the same repository's manifest at the reported digest iff no `/manifests/` starts inside `/v2/<repo>` |
| Paths.ScopeRoundTrip | client.go:91 | the repository is recovered from its scope `repository:<repo>:*` |
| Paths.RepoScopeInjective | client.go:78 | distinct repositories have distinct scopes, so they never share a cached token |
| Paths.TagsPathRoundTrip | client.go:78 | the repository is recovered from its tag-listing path `/v2/<repo>/tags/list` |
| Text.BeforeFirst | client.go:160 | for a non-empty separator, `Split(path, sep)[0]` is a prefix of the path, holds no occurrence of the separator, is followed by one when the separator occurs, and is the whole path otherwise |
| Paths.AsWrittenKeepsRepository | client.go:159-161 | the rewrite as written gives `/v2/<repo>/manifests/<digest>` iff no `/manifests/` starts inside `/v2/<repo>` |
| Paths.AsWrittenDeletesInOtherRepository | client.go:159-161 | as written, the deletion of a manifest of repository `proj/manifests/app` is sent to repository `proj` |
| Paths.DeletePathKeepsRepository | client.go:159-161 | the corrected rewrite of `/v2/<repo>/manifests/<tag>` is `/v2/<repo>/manifests/<digest>` for every repository name |
| Retention.Clean | client.go:106-110 | `Clean` fails iff the repository listing fails, and then it deletes nothing |
| Retention.GroupsByDigest | client.go:111-122 | the groups built are exactly the digests met, each holding its tags in listing order; tags whose lookup failed share the group "" |
| Retention.CleanFollowsRetentionRule | client.go:111-140 | a tag is deleted iff it is the first listed tag of its digest and no tag of that digest is kept |
| Retention.KeptDigestsSurvive | client.go:124-139 | no tag sharing a digest with a deleted tag is kept; in particular one kept tag whose lookup failed protects every tag whose lookup failed |
| Retention.OneDeletePerDigest | client.go:129-139 | at most one `DeleteTag` per digest, the "" group included |
| Retention.DeletesAreListedAndUnkept | client.go:129-139 | every deleted tag was listed and is not itself kept |
| Retention.RetentionExample | client.go:106-143 | with `a` and `b` on one manifest, `c` on another and `a` kept, only `c` is deleted |
| Retention.FailedListingIsSkipped | client.go:114-118 | a repository whose tag listing fails changes nothing: the decision is the one for the catalog without it |
| Retention.EmptyCatalog | client.go:106-143 | an empty catalog gives success and no deletion |
| Retention.RerunDeletesOnlyLeftovers | client.go:106-143 | once the registry removed each deleted manifest in the repository of the tag it was deleted through, a second run with the same keep tags deletes only listed tags whose lookup gave "" or whose digest the first run deleted in another repository only |
| Retention.RerunDeletesNothing | client.go:106-143 | when every lookup succeeds and each digest is listed in one repository only, a second run with the same keep tags deletes nothing |
| Retention.RerunRepeatsFailedLookup | client.go:119-139 | a tag whose lookup failed is deleted through again by every run, since no manifest is removed for it |
| Retention.RerunReachesOtherRepository | client.go:129-139 | a digest tagged `x` in `A` and `y` in `B`, nothing kept: the first run deletes through `A`/`x` only, leaving `B`/`y`, which the second run deletes |
| Retention.CleanEveryRepository | client.go:129-139 | the corrected planner fails iff the listing fails, and deletes only listed, unkept tags |
| Retention.EveryRepositoryIsCleaned | client.go:129-139 | the corrected planner deletes through some tag of every (repository, digest) pair whose digest has no kept tag |
| Retention.CorrectedRerunDeletesNothing | client.go:129-139 | after the corrected planner ran, a second run deletes only tags whose lookup failed, and nothing when every lookup succeeds |
| Retention.CorrectedAgreesInOneRepository | client.go:129-139 | when each digest is listed in one repository only, the corrected planner decides exactly as `Clean` |

## Left out

- Transport, JSON decoding and logging. Replies are inputs. The decoded `repositories`, `tags`
  and `token` fields are given with them. The log calls and the `fmt.Println` of client.go:113
  have no effect on results.
- The `User-Agent` header and the exact `Accept` header text. The model records one constant
  `Accept` value for registry requests.
- Error messages. They are constructors (`NoAuthService`, `InvalidStatus`, `BadStatus`) rather
  than formatted text.
- The status of the DELETE reply. client.go:166-167 only logs it, and the model does the same
  by ignoring it.
- Go map iteration order in `Clean`. Deletions are a set. Their order depends on map order in
  the source and is not observable in the result.
- Retention.Clean: the digest lookup is a deterministic function of repository and tag. The
  source calls `TagInfo` twice per tag (client.go:120), and each call may refresh the token
  cache. The model neither threads the cache through `Clean` nor lets the two lookups disagree.
- Retention.RerunDeletesOnlyLeftovers: assumes a failed tag listing fails again on the second
  run, that the DELETE reaches the repository of the tag it was sent for (the condition is in
  Calls.DeleteTagTargetsDigest), and that deleting a manifest removes every tag of that
  repository pointing at it. The last is the registry's behaviour, not the client's. A tag whose
  lookup gave "" is taken to remove nothing.
- Retention.RerunDeletesNothing: holds only under its two conditions; the source promises no
  more, as Retention.RerunRepeatsFailedLookup and Retention.RerunReachesOtherRepository show.
- Text.ToLower: lower-cases only 'A'..'Z', U+0130 and U+212A. Every other rune Go lower-cases
  becomes a non-ASCII rune, so the prefix test against "basic" comes out the same.
- Challenge.WellFormedChallenge: requires the captures and the trailing text to hold no quote.
  With quotes the greedy groups can extend past the intended ones, which
  Challenge.ServiceRunsToLastQuote describes.
- Text.BeforeFirst: requires a non-empty separator. Go's `Split(s, "")[0]` is the first rune,
  and the client only ever splits on `/manifests/`.
- Calls.Call: the index-out-of-range panic of client.go:167 is a result (`IndexOutOfRange`),
  not an abort of the program. Only a deletion on a path without `/manifests/` reaches it, and
  `DeleteTag` never does.
- Calls.DeleteTag: has no contract of its own. Calls.DeleteTagTargetsDigest states what it does.
- The `manifest` argument of `call`. Every caller passes 2, so the schema version is fixed.

## Findings

| source | as written | input that shows it | evidently intended | confidence | as-written member | corrected member |
|---|---|---|---|---|---|---|
| client.go:159-161 | the deletion path keeps the text before the FIRST `/manifests/` of `/v2/<repo>/manifests/<tag>` | repository `proj/manifests/app`, tag `v1`: the DELETE goes to `/v2/proj/manifests/<digest>`, a manifest of repository `proj` | replace only the reference after the last `/manifests/`, keeping the repository | medium, not executed | Paths.AsWrittenDeletesInOtherRepository | Paths.DeletePathKeepsRepository |
| client.go:129-139 | one `DeleteTag` per unkept digest, through its first tag, removes the manifest in that tag's repository only | digest `d` tagged `x` in repository `A` and `y` in `B`, nothing kept: the run deletes `A`'s manifest only, and a second run deletes `B`'s | delete an unkept digest in every repository listing it, so that a second run deletes nothing | low, not executed | Retention.RerunReachesOtherRepository | Retention.CorrectedRerunDeletesNothing |

=== FILE: calls.dfy ===
/** The authenticated call primitive (client.go:145-173) and the registry reads built on it
    (client.go:66-104). Every reply is an input; the result says what the client hands back,
    how the token cache changed and which requests went out. */
module Calls {
  import opened Wrappers
  import opened Http
  import opened Negotiate
  import opened Tokens
  import opened Paths

  /** Why a call failed: a transport error, a status other than 200 with the body, or the
      run-time panic of `parts[1]` (client.go:167) after a DELETE whose path held no
      `/manifests/`, where Go aborts instead of returning. */
  datatype CallError = Transport(err: string) | BadStatus(status: int, body: string) | IndexOutOfRange

  /** The replies the token cache would receive during one call. */
  datatype TokenReplies = TokenReplies(validation: Reply, issuer: IssuerReply)

  /** The result of an operation, the token cache afterwards and the requests sent. */
  datatype Step<+T> = Step(result: Result<T, CallError>, tokens: map<string, string>, trace: seq<Request>)

  /** The bearer token for a call, the cache afterwards and the token requests, when the client
      talks to a token issuer; nothing at all otherwise. */
  function Authorize(c: Client, scope: string, replies: TokenReplies): (Option<string>, map<string, string>, seq<Request>) {
    if c.authURL != "" then
      var t := GetToken(c, scope, replies.validation, replies.issuer);
      (Some(t.token), t.tokens, t.trace)
    else
      (None, c.tokens, [])
  }

  /** The requests of a call addressed to the registry itself (not to the token issuer, and
      not the validation probe): they are the only ones with the manifest `Accept` header. */
  predicate ToRegistry(q: Request) {
    q.accept == ManifestV2
  }

  /** Only the cache entry for `scope` may differ between `before` and `after`. */
  ghost predicate OnlyScopeChanges(before: map<string, string>, after: map<string, string>, scope: string) {
    && (forall k :: k != scope ==> (k in after <==> k in before))
    && (forall k :: k != scope && k in before ==> after[k] == before[k])
  }

  /** Every registry request of the trace is a GET of `<url><path>`. */
  ghost predicate ReadsOnly(c: Client, path: string, trace: seq<Request>) {
    forall q :: q in trace && ToRegistry(q) ==> q.verb == Get && q.url == c.url + path
  }

  /** Every other request of the trace is the token validation probe of `<url>/v2/` or the
      token request for `scope`. */
  ghost predicate TokenTraffic(c: Client, scope: string, trace: seq<Request>) {
    forall q :: q in trace && !ToRegistry(q) ==> q.url == c.url + BasePath || q == IssuerRequest(c, scope)
  }

  /** `call(path, scope, 2, delete)`: GET `<url><path>`; any status but 200 is an error; for a
      deletion, a DELETE at the digest the GET reported follows, its path rewritten as
      client.go:160-161 does. The `del` reply is only used when a DELETE is sent. */
  function Call(c: Client, path: string, scope: string, delete: bool,
                replies: TokenReplies, get: Reply, del: Reply): (r: Step<Reply>)
    ensures c.authURL == "" ==> r.tokens == c.tokens
    ensures OnlyScopeChanges(c.tokens, r.tokens, scope)
    ensures r.result.Ok? <==> get.Replied? && get.status == 200 && (delete ==> del.Replied? && HoldsSeparator(path))
    ensures r.result == Err(IndexOutOfRange)
      <==> delete && get.Replied? && get.status == 200 && del.Replied? && !HoldsSeparator(path)
    ensures forall q :: q in r.trace && ToRegistry(q) && q.verb == Get ==> q.url == c.url + path
    ensures !delete ==> ReadsOnly(c, path, r.trace)
    ensures TokenTraffic(c, scope, r.trace)
    ensures Request(Get, c.url + path, ManifestV2, BasicOf(c), Authorize(c, scope, replies).0) in r.trace
    ensures c.authURL != "" ==> r.tokens == GetToken(c, scope, replies.validation, replies.issuer).tokens
  {
    AuthorizeKeepsToItself(c, scope, replies);
    var (bearer, tokens, pre) := Authorize(c, scope, replies);
    var getRequest := Request(Get, c.url + path, ManifestV2, BasicOf(c), bearer);
    match get
    case Failed(err) => Step(Err(Transport(err)), tokens, pre + [getRequest])
    case Replied(status, digest, body) =>
      if status != 200 then Step(Err(BadStatus(status, body)), tokens, pre + [getRequest])
      else if !delete then Step(Ok(get), tokens, pre + [getRequest])
      else
        var delRequest := Request(Delete, c.url + DeletePathAsWritten(path, digest), ManifestV2, BasicOf(c), bearer);
        match del
        case Failed(err) => Step(Err(Transport(err)), tokens, pre + [getRequest, delRequest])
        case Replied(_, _, _) =>
          if HoldsSeparator(path) then Step(Ok(del), tokens, pre + [getRequest, delRequest])
          else Step(Err(IndexOutOfRange), tokens, pre + [getRequest, delRequest])
  }

  /** `QueryRepositories`: the catalog under scope `registry:catalog:*`. `repositories` is the
      decoded `repositories` field of a 200 reply (empty when absent). */
  function QueryRepositories(c: Client, replies: TokenReplies, get: Reply, repositories: seq<string>): (r: Step<seq<string>>)
    ensures r.result.Ok? <==> get.Replied? && get.status == 200
    ensures r.result.Ok? ==> r.result.value == repositories
    ensures ReadsOnly(c, CatalogPath, r.trace)
    ensures TokenTraffic(c, CatalogScope, r.trace)
    ensures OnlyScopeChanges(c.tokens, r.tokens, CatalogScope)
    ensures Request(Get, c.url + CatalogPath, ManifestV2, BasicOf(c), Authorize(c, CatalogScope, replies).0) in r.trace
    ensures c.authURL != "" ==> r.tokens == GetToken(c, CatalogScope, replies.validation, replies.issuer).tokens
  {
    var s := Call(c, CatalogPath, CatalogScope, false, replies, get, get);
    match s.result
    case Ok(_) => Step(Ok(repositories), s.tokens, s.trace)
    case Err(e) => Step(Err(e), s.tokens, s.trace)
  }

  /** `QueryTags(repo)`: `/v2/<repo>/tags/list` under scope `repository:<repo>:*`. `tags` is
      the decoded `tags` field of a 200 reply (empty when null or absent). */
  function QueryTags(c: Client, repo: string, replies: TokenReplies, get: Reply, tags: seq<string>): (r: Step<seq<string>>)
    ensures r.result.Ok? <==> get.Replied? && get.status == 200
    ensures r.result.Ok? ==> r.result.value == tags
    ensures ReadsOnly(c, TagsPath(repo), r.trace)
    ensures TokenTraffic(c, RepoScope(repo), r.trace)
    ensures OnlyScopeChanges(c.tokens, r.tokens, RepoScope(repo))
    ensures Request(Get, c.url + TagsPath(repo), ManifestV2, BasicOf(c), Authorize(c, RepoScope(repo), replies).0) in r.trace
    ensures c.authURL != "" ==> r.tokens == GetToken(c, RepoScope(repo), replies.validation, replies.issuer).tokens
  {
    var s := Call(c, TagsPath(repo), RepoScope(repo), false, replies, get, get);
    match s.result
    case Ok(_) => Step(Ok(tags), s.tokens, s.trace)
    case Err(e) => Step(Err(e), s.tokens, s.trace)
  }

  /** `TagInfo(repo, tag)`: the `Docker-Content-Digest` of the manifest at `tag`; a failed call
      is logged and yields "". It never fails. */
  function TagInfo(c: Client, repo: string, tag: string, replies: TokenReplies, get: Reply): (r: Step<string>)
    ensures r.result.Ok?
    ensures r.result.value == (if get.Replied? && get.status == 200 then get.digest else "")
    ensures ReadsOnly(c, ManifestPath(repo, tag), r.trace)
    ensures TokenTraffic(c, RepoScope(repo), r.trace)
    ensures OnlyScopeChanges(c.tokens, r.tokens, RepoScope(repo))
    ensures Request(Get, c.url + ManifestPath(repo, tag), ManifestV2, BasicOf(c), Authorize(c, RepoScope(repo), replies).0) in r.trace
    ensures c.authURL != "" ==> r.tokens == GetToken(c, RepoScope(repo), replies.validation, replies.issuer).tokens
  {
    var s := Call(c, ManifestPath(repo, tag), RepoScope(repo), false, replies, get, get);
    match s.result
    case Ok(reply) => Step(Ok(reply.digest), s.tokens, s.trace)
    case Err(_) => Step(Ok(""), s.tokens, s.trace)
  }

  /** `DeleteTag(repo, tag)`: the deleting call on the manifest at `tag`; its result is dropped. */
  function DeleteTag(c: Client, repo: string, tag: string, replies: TokenReplies, get: Reply, del: Reply): (r: Step<()>)
  {
    var s := Call(c, ManifestPath(repo, tag), RepoScope(repo), true, replies, get, del);
    Step(Ok(()), s.tokens, s.trace)
  }

  /** Authorizing a call touches only the scope's cache entry (none without an issuer), and
      its requests are token traffic for that scope, none of them addressed to the registry. */
  lemma AuthorizeKeepsToItself(c: Client, scope: string, replies: TokenReplies)
    ensures var (_, tokens, trace) := Authorize(c, scope, replies);
      && OnlyScopeChanges(c.tokens, tokens, scope)
      && (c.authURL == "" ==> tokens == c.tokens)
      && TokenTraffic(c, scope, trace)
      && forall q :: q in trace ==> !ToRegistry(q)
  {
    TokenRequestsAreNotRegistryCalls(c, scope, replies);
  }

  /** The token cache's requests never carry the manifest `Accept` header. */
  lemma TokenRequestsAreNotRegistryCalls(c: Client, scope: string, replies: TokenReplies)
    ensures forall q :: q in Authorize(c, scope, replies).2 ==> !ToRegistry(q) && q.verb == Get
  {
    assert ManifestV2 != "";
  }

  /** A Bearer header is attached to the registry requests of a call exactly when the client
      has a token issuer, and then it holds the token the cache handed out; Basic credentials
      are attached exactly when the client was set up for Basic authentication. */
  lemma RegistryRequestHeaders(c: Client, path: string, scope: string, delete: bool,
                               replies: TokenReplies, get: Reply, del: Reply)
    ensures var r := Call(c, path, scope, delete, replies, get, del);
      forall q :: q in r.trace && ToRegistry(q) ==>
        && (q.bearer.Some? <==> c.authURL != "")
        && (c.authURL != "" ==> q.bearer == Some(GetToken(c, scope, replies.validation, replies.issuer).token))
        && q.basic == BasicOf(c)
  {
    TokenRequestsAreNotRegistryCalls(c, scope, replies);
  }

  /** A client without token issuer sends no Bearer header at all and leaves its cache alone;
      a Basic client sends its credentials on every request. */
  lemma NoIssuerNoBearer(c: Client, path: string, scope: string, delete: bool,
                         replies: TokenReplies, get: Reply, del: Reply)
    requires c.authURL == ""
    ensures var r := Call(c, path, scope, delete, replies, get, del);
      && NoBearer(r.trace)
      && r.tokens == c.tokens
      && (c.basicAuth ==> forall q :: q in r.trace ==> q.basic == Some(c.creds))
  {
  }

  /** A DELETE goes out exactly when a deletion was asked for and the GET returned 200; it
      targets the path client.go:160-161 builds from the digest the GET reported. */
  lemma DeleteOnlyAfterSuccessfulGet(c: Client, path: string, scope: string, delete: bool,
                                     replies: TokenReplies, get: Reply, del: Reply)
    ensures var r := Call(c, path, scope, delete, replies, get, del);
      && ((exists q :: q in r.trace && q.verb == Delete) <==> delete && get.Replied? && get.status == 200)
      && (forall q :: q in r.trace && q.verb == Delete ==> q.url == c.url + DeletePathAsWritten(path, get.digest))
  {
    TokenRequestsAreNotRegistryCalls(c, scope, replies);
    var r := Call(c, path, scope, delete, replies, get, del);
    if delete && get.Replied? && get.status == 200 {
      assert r.trace[|r.trace| - 1].verb == Delete;
    }
  }

  /** Deleting a tag GETs its manifest under scope `repository:<repo>:*` and, only when that
      GET returned 200, DELETEs the manifest at the reported digest. The DELETE names the same
      repository exactly when no `/manifests/` starts inside `/v2/<repo>`. */
  lemma DeleteTagTargetsDigest(c: Client, repo: string, tag: string, replies: TokenReplies, get: Reply, del: Reply)
    ensures var r := DeleteTag(c, repo, tag, replies, get, del);
      && (forall q :: q in r.trace && ToRegistry(q) && q.verb == Get ==> q.url == c.url + ManifestPath(repo, tag))
      && TokenTraffic(c, RepoScope(repo), r.trace)
      && Request(Get, c.url + ManifestPath(repo, tag), ManifestV2, BasicOf(c), Authorize(c, RepoScope(repo), replies).0) in r.trace
      && (c.authURL != "" ==> r.tokens == GetToken(c, RepoScope(repo), replies.validation, replies.issuer).tokens)
      && ((exists q :: q in r.trace && q.verb == Delete) <==> get.Replied? && get.status == 200)
      && Call(c, ManifestPath(repo, tag), RepoScope(repo), true, replies, get, del).result != Err(IndexOutOfRange)
      && (forall q :: q in r.trace && q.verb == Delete ==>
            (q.url == c.url + ManifestPath(repo, get.digest) <==> SeparatorAfterRepository(repo, tag)))
  {
    DeleteOnlyAfterSuccessfulGet(c, ManifestPath(repo, tag), RepoScope(repo), true, replies, get, del);
    ManifestPathHoldsSeparator(repo, tag);
    if get.Replied? {
      AsWrittenKeepsRepository(repo, tag, get.digest);
    }
  }
}

=== FILE: challenge.dfy ===
/** The bearer challenge pattern of client.go:47,
      ^Bearer realm="(http.+)",service="(.+)"
    written out as a string function instead of a regular-expression engine.

    Go's `regexp` reports the leftmost match and, among the matches starting there, the one
    its backtracking priority prefers: the greedy `.+` of the realm group takes as much as it
    can, and then the greedy `.+` of the service group takes as much as it can. `.` matches any
    rune except a newline. There is no `$`, so the match is a prefix of the header. */
module Challenge {
  import opened Wrappers
  import opened Text

  /** The quote that delimits both groups. */
  const Close := "\""
  /** The literal text before the realm group. */
  const Lead := "Bearer realm=" + Close
  /** The literal text between the realm group and the service group. */
  const Sep := Close + ",service=" + Close

  /** `realm` and `service` are captures with which the pattern matches a prefix of `h`. */
  predicate IsMatch(h: string, realm: string, service: string) {
    && |realm| >= 5 && "http" <= realm && '\n' !in realm
    && |service| >= 1 && '\n' !in service
    && Lead + (realm + (Sep + (service + Close))) <= h
  }

  /** A service group of length `j` fits at the start of `u` (the text after `",service="`). */
  predicate ServiceEndsAt(u: string, j: int) {
    1 <= j < |u| && u[j] == '"' && '\n' !in u[..j]
  }

  /** The longest service group below length `n`. */
  function LastServiceEnd(u: string, n: nat): (r: Option<nat>)
    requires n <= |u|
    ensures r.Some? ==> r.value < n && ServiceEndsAt(u, r.value)
    ensures forall j :: j < n && ServiceEndsAt(u, j) ==> r.Some? && j <= r.value
    decreases n
  {
    if n <= 1 then None
    else if u[n - 1] == '"' && '\n' !in u[..n - 1] then Some(n - 1)
    else LastServiceEnd(u, n - 1)
  }

  /** The longest service group at the start of `u`. */
  function ServiceEnd(u: string): Option<nat> {
    LastServiceEnd(u, |u|)
  }

  /** `realm` and `service` are the captures Go reports: a match with the longest realm, and
      among the matches with that realm the one with the longest service. */
  ghost predicate Greediest(h: string, realm: string, service: string) {
    && IsMatch(h, realm, service)
    && forall r2, s2 :: IsMatch(h, r2, s2) ==> |r2| <= |realm| && (r2 == realm ==> |s2| <= |service|)
  }

  /** A realm group of length `k` fits at the start of `t` (the text after `Bearer realm="`):
      it starts with "http", has at least one more rune, no newline, and is followed by
      `",service="` and some service group. */
  predicate RealmEndsAt(t: string, k: int) {
    && 5 <= k <= |t| && "http" <= t && '\n' !in t[..k]
    && Sep <= t[k..] && ServiceEnd(t[k + |Sep|..]).Some?
  }

  /** The longest realm group of length at most `n`. */
  function LastRealmEnd(t: string, n: nat): (r: Option<nat>)
    requires n <= |t|
    ensures r.Some? ==> r.value <= n && RealmEndsAt(t, r.value)
    ensures forall k :: k <= n && RealmEndsAt(t, k) ==> r.Some? && k <= r.value
    decreases n
  {
    if n < 5 then None
    else if RealmEndsAt(t, n) then Some(n)
    else LastRealmEnd(t, n - 1)
  }

  /** `FindStringSubmatch` for the challenge pattern: the realm and service captures, or
      None when the pattern does not match. */
  function Match(h: string): (r: Option<(string, string)>)
    ensures r.Some? ==> IsMatch(h, r.value.0, r.value.1)
  {
    if !(Lead <= h) then None
    else
      var t := h[|Lead|..];
      match LastRealmEnd(t, |t|)
      case None => None
      case Some(k) =>
        var u := t[k + |Sep|..];
        var j := ServiceEnd(u).value;
        SplitIsMatch(h, k, j);
        Some((t[..k], u[..j]))
  }

  /** Positions found by the search give a match of the pattern. */
  lemma SplitIsMatch(h: string, k: nat, j: nat)
    requires Lead <= h
    requires RealmEndsAt(h[|Lead|..], k)
    requires ServiceEndsAt(h[|Lead|..][k + |Sep|..], j)
    ensures IsMatch(h, h[|Lead|..][..k], h[|Lead|..][k + |Sep|..][..j])
  {
    var t := h[|Lead|..];
    var u := t[k + |Sep|..];
    var realm, service := t[..k], u[..j];
    assert realm[..4] == t[..4];
    assert Close <= u[j..];
    PrefixJoin(service, Close, u);
    assert u == t[k..][|Sep|..];
    PrefixJoin(Sep, service + Close, t[k..]);
    PrefixJoin(realm, Sep + (service + Close), t);
    PrefixJoin(Lead, realm + (Sep + (service + Close)), h);
  }

  /** Every match of the pattern is found by the search at the positions it occupies. */
  lemma MatchIsSplit(h: string, realm: string, service: string)
    requires IsMatch(h, realm, service)
    ensures Lead <= h
    ensures RealmEndsAt(h[|Lead|..], |realm|) && realm == h[|Lead|..][..|realm|]
    ensures ServiceEndsAt(h[|Lead|..][|realm| + |Sep|..], |service|)
    ensures service == h[|Lead|..][|realm| + |Sep|..][..|service|]
  {
    PrefixSplit(Lead, realm + (Sep + (service + Close)), h);
    var t := h[|Lead|..];
    PrefixSplit(realm, Sep + (service + Close), t);
    var k := |realm|;
    PrefixSplit(Sep, service + Close, t[k..]);
    var u := t[k + |Sep|..];
    assert u == t[k..][|Sep|..];
    PrefixSplit(service, Close, u);
    assert u[|service|] == Close[0];
    assert t[..k] == realm;
    assert u[..|service|] == service;
    assert ServiceEndsAt(u, |service|);
    assert "http" <= t by { assert t[..4] == realm[..4]; }
    assert RealmEndsAt(t, k);
  }

  /** The greedy order of Go's regexp: of all the ways the pattern can match, the one reported
      has the longest realm, and among those the longest service. */
  lemma MatchIsGreedy(h: string, realm: string, service: string)
    requires IsMatch(h, realm, service)
    ensures Match(h).Some?
    ensures |realm| <= |Match(h).value.0|
    ensures realm == Match(h).value.0 ==> |service| <= |Match(h).value.1|
  {
    MatchIsSplit(h, realm, service);
    RealmIsLongest(h, |realm|);
    if realm == Match(h).value.0 {
      ServiceIsLongest(h, realm, Match(h).value.1, |service|);
    }
  }

  /** No realm group is longer than the reported realm. */
  lemma RealmIsLongest(h: string, k: nat)
    requires Lead <= h && RealmEndsAt(h[|Lead|..], k)
    ensures Match(h).Some? && k <= |Match(h).value.0|
  {
    var t := h[|Lead|..];
    assert LastRealmEnd(t, |t|).Some?;
  }

  /** No service group at the reported realm is longer than the reported service. */
  lemma ServiceIsLongest(h: string, realm: string, service: string, j: nat)
    requires Match(h) == Some((realm, service))
    requires ServiceEndsAt(h[|Lead|..][|realm| + |Sep|..], j)
    ensures j <= |service|
  {
    var t := h[|Lead|..];
    var k := LastRealmEnd(t, |t|).value;
    assert |realm| == k;
  }

  /** The pattern fails to match exactly when no captures can make it match. */
  lemma {:induction false} NoMatchMeansNoCaptures(h: string)
    ensures Match(h).None? <==> forall realm, service :: !IsMatch(h, realm, service)
  {
    if Match(h).None? {
      forall realm, service ensures !IsMatch(h, realm, service) {
        if IsMatch(h, realm, service) {
          MatchIsGreedy(h, realm, service);
        }
      }
    }
  }

  /** The number of double quotes in `s`. */
  function Quotes(s: string): nat {
    multiset(s)['"']
  }

  /** The quote in the literal before the realm group. */
  lemma LeadQuotes()
    ensures Quotes(Lead) == 1
  {
    assert multiset("Bearer realm=")['"'] == 0;
  }

  /** The quotes in the literal between the groups. */
  lemma SepQuotes()
    ensures Quotes(Sep) == 2
  {
    assert multiset(",service=")['"'] == 0;
  }

  /** A match of a header holding exactly four quotes has captures without quotes. */
  lemma CapturesWithoutQuotes(h: string, realm: string, service: string)
    requires IsMatch(h, realm, service) && Quotes(h) == 4
    ensures '"' !in realm && '"' !in service
  {
    var p := Lead + (realm + (Sep + (service + Close)));
    assert h == p + h[|p|..];
    LeadQuotes();
    SepQuotes();
    assert Quotes(p) == 4 + Quotes(realm) + Quotes(service);
  }

  /** Two matches whose realms hold no quote have the same realm: each realm ends at the
      first quote after `Bearer realm="`. */
  lemma QuoteFreeRealmIsUnique(h: string, r1: string, v1: string, r2: string, v2: string)
    requires IsMatch(h, r1, v1) && IsMatch(h, r2, v2)
    requires '"' !in r1 && '"' !in r2
    ensures r1 == r2
  {
    MatchIsSplit(h, r1, v1);
    MatchIsSplit(h, r2, v2);
    var t := h[|Lead|..];
    assert t[|r1|] == Sep[0] && t[|r2|] == Sep[0];
  }

  /** Two matches with the same realm and services holding no quote have the same service. */
  lemma QuoteFreeServiceIsUnique(h: string, realm: string, v1: string, v2: string)
    requires IsMatch(h, realm, v1) && IsMatch(h, realm, v2)
    requires '"' !in v1 && '"' !in v2
    ensures v1 == v2
  {
    MatchIsSplit(h, realm, v1);
    MatchIsSplit(h, realm, v2);
    var u := h[|Lead|..][|realm| + |Sep|..];
  }

  /** The header built from captures that fit the groups matches with those captures. */
  lemma ChallengeShape(realm: string, service: string, rest: string)
    requires |realm| >= 5 && "http" <= realm && '\n' !in realm
    requires |service| >= 1 && '\n' !in service
    ensures IsMatch(Lead + (realm + (Sep + (service + (Close + rest)))), realm, service)
  {
    PrefixJoin(service, Close, service + (Close + rest));
    PrefixJoin(Sep, service + Close, Sep + (service + (Close + rest)));
    PrefixJoin(realm, Sep + (service + Close), realm + (Sep + (service + (Close + rest))));
    PrefixJoin(Lead, realm + (Sep + (service + Close)), Lead + (realm + (Sep + (service + (Close + rest)))));
  }

  /** The header built from quote-free parts holds four quotes, all from the pattern. */
  lemma ChallengeQuotes(realm: string, service: string, rest: string)
    requires '"' !in realm && '"' !in service && '"' !in rest
    ensures Quotes(Lead + (realm + (Sep + (service + (Close + rest))))) == 4
  {
    LeadQuotes();
    SepQuotes();
  }

  /** The header text read left to right is the nested concatenation the proofs use. */
  lemma Regroup(realm: string, service: string, rest: string)
    ensures Lead + realm + Sep + service + Close + rest == Lead + (realm + (Sep + (service + (Close + rest))))
  {
    var a, b, c, d, e := Lead, realm, Sep, service, Close;
    assert a + b + c + d + e + rest == a + (b + (c + (d + (e + rest))));
  }

  /** A header `Bearer realm="R",service="S"` followed by text without quotes yields exactly
      the captures R and S, as long as R and S themselves hold no quote and fit the groups. */
  lemma WellFormedChallenge(realm: string, service: string, rest: string)
    requires |realm| >= 5 && "http" <= realm && '"' !in realm && '\n' !in realm
    requires |service| >= 1 && '"' !in service && '\n' !in service
    requires '"' !in rest
    ensures Match(Lead + realm + Sep + service + Close + rest) == Some((realm, service))
  {
    Regroup(realm, service, rest);
    var h := Lead + (realm + (Sep + (service + (Close + rest))));
    ChallengeShape(realm, service, rest);
    ChallengeQuotes(realm, service, rest);
    MatchIsGreedy(h, realm, service);
    var (r, v) := Match(h).value;
    CapturesWithoutQuotes(h, r, v);
    QuoteFreeRealmIsUnique(h, r, v, realm, service);
    QuoteFreeServiceIsUnique(h, realm, v, service);
  }

  /** The header `Bearer realm="http://a",service="b",scope="c"`, written around the
      captures the pattern gives it: the realm `http://a` and the service `b",scope="c`. */
  const TrailingRealm := "http://a"
  const TrailingService := "b" + Close + ",scope=" + Close + "c"
  const TrailingScopeHeader := Lead + TrailingRealm + Sep + TrailingService + Close

  /** That header yields the realm `http://a` and the service `b",scope="c`: the trailing
      scope parameter joins the service capture. */
  lemma TrailingScopeCaptures()
    ensures Match(TrailingScopeHeader) == Some((TrailingRealm, TrailingService))
  {
    var h := TrailingScopeHeader;
    TrailingScopeShape();
    MatchIsGreedy(h, TrailingRealm, TrailingService);
    var r, v := Match(h).value.0, Match(h).value.1;
    TrailingScopeEnds(r, v);
    TrailingScopeGroups(h, r, v);
  }

  /** The captures of the trailing-scope header, read off the positions of the match. */
  lemma TrailingScopeGroups(h: string, r: string, v: string)
    requires h == TrailingScopeHeader && IsMatch(h, r, v)
    requires |r| >= 8 && |r| + |v| == 19
    ensures r == TrailingRealm && v == TrailingService
  {
    MatchIsSplit(h, r, v);
    TrailingScopeShape();
    var t := h[|Lead|..];
    TrailingScopeRealm(t, |r|);
    assert t[|r| + |Sep|..][..|v|] == t[19..30];
  }

  /** The trailing-scope header matches with the captures it was written around. */
  lemma TrailingScopeShape()
    ensures IsMatch(TrailingScopeHeader, TrailingRealm, TrailingService)
    ensures TrailingScopeHeader[|Lead|..] == TrailingRealm + Sep + TrailingService + Close
    ensures '\n' !in TrailingScopeHeader
  {
    Regroup(TrailingRealm, TrailingService, "");
    ChallengeShape(TrailingRealm, TrailingService, "");
    assert TrailingScopeHeader == Lead + (TrailingRealm + Sep + TrailingService + Close);
  }

  /** The longest match of the trailing-scope header runs to its last quote. */
  lemma TrailingScopeEnds(r: string, v: string)
    requires Match(TrailingScopeHeader) == Some((r, v))
    ensures |r| + |v| == 19
  {
    var h := TrailingScopeHeader;
    TrailingScopeShape();
    ServiceRunsToLastQuote(h);
    var n := |Lead| + |r| + |Sep| + |v| + 1;
    assert Lead + (r + (Sep + (v + Close))) <= h;
    assert h[|h| - 1] == Close[0];
    MatchEndsAtLastQuote(h, n);
  }

  /** The longest realm of the trailing-scope header is `http://a`. */
  lemma TrailingScopeRealm(t: string, k: nat)
    requires t == TrailingRealm + Sep + TrailingService + Close
    requires 8 <= k <= 18 && RealmEndsAt(t, k)
    ensures k == 8 && t[..8] == TrailingRealm && t[19..30] == TrailingService
  {
    TrailingScopeText();
    OnlyFirstSeparator(t, k);
  }

  /** The text after `Bearer realm="` of the trailing-scope header, rune by rune. */
  lemma TrailingScopeText()
    ensures TrailingRealm + Sep + TrailingService + Close == "http://a\",service=\"b\",scope=\"c\""
  {
  }

  /** A match followed by no quote in a header ending with a quote ends the header. */
  lemma MatchEndsAtLastQuote(h: string, n: nat)
    requires 0 < |h| && h[|h| - 1] == '"'
    requires n <= |h| && '"' !in h[n..]
    ensures n == |h|
  {
    if n < |h| {
      QuoteInTail(h, n);
    }
  }

  /** A text ending with a quote holds a quote in each of its non-empty suffixes. */
  lemma QuoteInTail(h: string, n: nat)
    requires n < |h| && h[|h| - 1] == '"'
    ensures '"' in h[n..]
  {
    assert h[n..][|h| - 1 - n] == '"';
  }

  /** After `http://a` no `",service="` begins in the text following `Bearer realm="` of the
      trailing-scope header, up to the last place a realm could end. */
  lemma OnlyFirstSeparator(t: string, k: nat)
    requires t == "http://a\",service=\"b\",scope=\"c\""
    requires 8 <= k <= 18 && Sep <= t[k..]
    ensures k == 8
  {
    assert t[k] == '"' by { assert t[k..][0] == Sep[0]; }
    assert t[k + 1] == ',' by { assert t[k..][1] == Sep[1]; }
  }

  /** In a text without newlines every quote past the first rune ends a service group. */
  lemma QuoteEndsService(u: string, i: nat)
    requires '\n' !in u && 1 <= i < |u| && u[i] == '"'
    ensures ServiceEndsAt(u, i)
  {
    assert forall c :: c in u[..i] ==> c in u;
  }

  /** In a header without newlines the service capture runs up to the last quote: nothing
      after the matched text holds a quote. A trailing `,scope="..."` therefore ends up
      inside the service capture. */
  lemma ServiceRunsToLastQuote(h: string)
    requires '\n' !in h && Match(h).Some?
    ensures var (realm, service) := Match(h).value;
      '"' !in h[|Lead| + |realm| + |Sep| + |service| + 1..]
  {
    var realm, service := Match(h).value.0, Match(h).value.1;
    MatchIsSplit(h, realm, service);
    var o := |Lead| + |realm| + |Sep|;
    var u := h[|Lead|..][|realm| + |Sep|..];
    assert u == h[o..];
    forall j | ServiceEndsAt(u, j)
      ensures j <= |service|
    {
      ServiceIsLongest(h, realm, service, j);
    }
    assert '\n' !in u by { assert forall c :: c in u ==> c in h; }
    NoQuoteAfter(u, |service|);
    assert u[|service| + 1..] == h[o + |service| + 1..];
  }

  /** Past the longest service group of a text without newlines there is no quote. */
  lemma NoQuoteAfter(u: string, n: nat)
    requires '\n' !in u && n < |u|
    requires forall j :: ServiceEndsAt(u, j) ==> j <= n
    ensures '"' !in u[n + 1..]
  {
    forall i | n + 1 <= i < |u|
      ensures u[i] != '"'
    {
      if u[i] == '"' {
        QuoteEndsService(u, i);
      }
    }
  }
}

=== FILE: http.dfy ===
/** The shapes of the HTTP exchanges the client takes part in. The transport itself is not
    modelled: every reply is an input to the operation that would have received it. */
module Http {
  import opened Wrappers

  /** The reply to a request: a transport failure, or a status code with the
      `Docker-Content-Digest` header ("" when absent) and the body. */
  datatype Reply = Failed(err: string) | Replied(status: int, digest: string, body: string)

  datatype Method = Get | Delete

  /** The username and password the client was built with. */
  datatype Credentials = Credentials(username: string, password: string)

  /** An outbound request: its verb and URL, the `Accept` header ("" when not set), the
      HTTP Basic credentials it carries, if any, and its `Authorization: Bearer` value, if any. */
  datatype Request = Request(
    verb: Method,
    url: string,
    accept: string,
    basic: Option<Credentials>,
    bearer: Option<string>)

  /** The `Accept` value of every registry call: the client always asks for schema 2 manifests. */
  const ManifestV2 := "application/vnd.docker.distribution.manifest.v2+json"

  /** The path of the API version check, also used as the authentication probe. */
  const BasePath := "/v2/"

  /** No request of the trace carries a bearer token. */
  predicate NoBearer(trace: seq<Request>) {
    forall i :: 0 <= i < |trace| ==> trace[i].bearer.None?
  }
}

=== FILE: negotiate.dfy ===
/** Client construction (client.go:28-64): one unauthenticated probe of `<url>/v2/` decides
    whether the registry is open, asks for HTTP Basic credentials, or hands out bearer tokens
    from an issuer named in its `WWW-Authenticate` challenge. */
module Negotiate {
  import opened Wrappers
  import opened Text
  import opened Http
  import Challenge

  /** The outcome of the probe: a transport failure, or a status code with the
      `WWW-Authenticate` header ("" when absent). */
  datatype Probe = ProbeFailed(err: string) | ProbeReplied(status: int, wwwAuthenticate: string)

  /** Why a client could not be built. */
  datatype AuthError =
    | ProbeError(err: string)      // the probe's transport error, returned as is
    | NoAuthService                // "no auth service"
    | InvalidStatus(status: int)   // "invalid resp status: <status>"

  /** A registry client. `authURL` is the token issuer `<realm>?service=<service>`, or "" when
      no bearer token is needed; `basicAuth` records that every request carries the
      credentials; `tokens` caches one bearer token per scope. */
  datatype Client = Client(
    url: string,
    creds: Credentials,
    authURL: string,
    basicAuth: bool,
    tokens: map<string, string>)

  /** The HTTP Basic credentials every request of the client carries, if any. */
  function BasicOf(c: Client): Option<Credentials> {
    if c.basicAuth then Some(c.creds) else None
  }

  /** The issuer URL built from the challenge captures. */
  function IssuerURL(realm: string, service: string): string {
    realm + "?service=" + service
  }

  /** Builds a client from the outcome of the probe. */
  function NewClient(url: string, creds: Credentials, probe: Probe): (r: Result<Client, AuthError>)
    ensures r.Ok? ==> r.value.url == url && r.value.creds == creds && r.value.tokens == map[]
    ensures r.Ok? ==> !(r.value.basicAuth && r.value.authURL != "")
    ensures r.Ok? ==> probe.ProbeReplied? && probe.status in {200, 401}
  {
    match probe
    case ProbeFailed(err) => Err(ProbeError(err))
    case ProbeReplied(status, auth) =>
      var c := Client(url, creds, "", false, map[]);
      if status == 200 then Ok(c)
      else if status == 401 then
        if "Bearer" <= auth then
          match Challenge.Match(auth)
          case Some((realm, service)) => Ok(c.(authURL := IssuerURL(realm, service)))
          case None => Err(NoAuthService)
        else if "basic" <= ToLower(auth) then Ok(c.(basicAuth := true))
        else Err(NoAuthService)
      else Err(InvalidStatus(status))
  }

  /** A transport error on the probe is handed back unchanged. */
  lemma ProbeFailureIsReturned(url: string, creds: Credentials, err: string)
    ensures NewClient(url, creds, ProbeFailed(err)) == Err(ProbeError(err))
  {
  }

  /** An open registry (status 200) gives a client without issuer and without credentials,
      whatever challenge header came along. */
  lemma OpenRegistry(url: string, creds: Credentials, auth: string)
    ensures NewClient(url, creds, ProbeReplied(200, auth)).Ok?
    ensures NewClient(url, creds, ProbeReplied(200, auth)).value.authURL == ""
    ensures !NewClient(url, creds, ProbeReplied(200, auth)).value.basicAuth
  {
  }

  /** Every status other than 200 and 401 is refused with that status. */
  lemma UnexpectedStatus(url: string, creds: Credentials, status: int, auth: string)
    requires status != 200 && status != 401
    ensures NewClient(url, creds, ProbeReplied(status, auth)) == Err(InvalidStatus(status))
  {
  }

  /** `Bearer realm="R",service="S"` yields the issuer `R?service=S` when R starts with "http"
      and has a fifth rune, S is not empty, and neither holds a quote or a newline. */
  lemma BearerChallenge(url: string, creds: Credentials, realm: string, service: string)
    requires |realm| >= 5 && "http" <= realm && '"' !in realm && '\n' !in realm
    requires |service| >= 1 && '"' !in service && '\n' !in service
    ensures var auth := "Bearer realm=\"" + realm + "\",service=\"" + service + "\"";
      NewClient(url, creds, ProbeReplied(401, auth))
        == Ok(Client(url, creds, realm + "?service=" + service, false, map[]))
  {
    var auth := "Bearer realm=\"" + realm + "\",service=\"" + service + "\"";
    assert auth == Challenge.Lead + realm + Challenge.Sep + service + Challenge.Close + "";
    Challenge.WellFormedChallenge(realm, service, "");
    assert "Bearer" <= Challenge.Lead;
  }

  /** A challenge starting with "Bearer" gives a bearer client exactly when the pattern
      matches, with the issuer built from the greedy captures, and is never taken for Basic. */
  lemma BearerPrefixed(url: string, creds: Credentials, auth: string)
    requires "Bearer" <= auth
    ensures var r := NewClient(url, creds, ProbeReplied(401, auth));
      && (r.Ok? <==> exists realm, service :: Challenge.IsMatch(auth, realm, service))
      && (r.Ok? ==> !r.value.basicAuth && r.value.authURL != "")
      && (r.Ok? ==> exists realm, service :: Challenge.Greediest(auth, realm, service)
                      && r.value.authURL == IssuerURL(realm, service))
      && (r.Err? ==> r.error == NoAuthService)
  {
    Challenge.NoMatchMeansNoCaptures(auth);
    var m := Challenge.Match(auth);
    if m.Some? {
      var (realm, service) := m.value;
      forall r2, s2 | Challenge.IsMatch(auth, r2, s2)
        ensures |r2| <= |realm| && (r2 == realm ==> |s2| <= |service|)
      {
        Challenge.MatchIsGreedy(auth, r2, s2);
      }
      assert Challenge.Greediest(auth, realm, service);
      assert |IssuerURL(realm, service)| > 0;
    }
  }

  /** The challenge `Bearer realm="http://a",service="b",scope="c"` gives the issuer
      `http://a?service=b",scope="c`: a trailing scope parameter, quotes included, becomes part
      of the issuer URL. */
  lemma TrailingScopeInIssuer(url: string, creds: Credentials)
    ensures NewClient(url, creds, ProbeReplied(401, Challenge.TrailingScopeHeader))
      == Ok(Client(url, creds, "http://a?service=b\",scope=\"c", false, map[]))
  {
    Challenge.TrailingScopeCaptures();
    TrailingScopeIsBearer();
    TrailingIssuerURL();
  }

  /** The trailing-scope header starts with "Bearer". */
  lemma TrailingScopeIsBearer()
    ensures "Bearer" <= Challenge.TrailingScopeHeader
  {
    var h := Challenge.TrailingScopeHeader;
    assert h == Challenge.Lead + (Challenge.TrailingRealm + Challenge.Sep + Challenge.TrailingService + Challenge.Close);
    assert "Bearer" <= Challenge.Lead;
    assert h[..6] == Challenge.Lead[..6];
  }

  /** The issuer URL built from the trailing-scope captures. */
  lemma TrailingIssuerURL()
    ensures IssuerURL(Challenge.TrailingRealm, Challenge.TrailingService) == "http://a?service=b\",scope=\"c"
  {
  }

  /** A challenge not starting with "Bearer" whose lower-cased form starts with "basic"
      gives a Basic client without issuer; any other challenge is refused. */
  lemma NonBearerChallenge(url: string, creds: Credentials, auth: string)
    requires !("Bearer" <= auth)
    ensures "basic" <= ToLower(auth) ==>
      NewClient(url, creds, ProbeReplied(401, auth)) == Ok(Client(url, creds, "", true, map[]))
    ensures !("basic" <= ToLower(auth)) ==>
      NewClient(url, creds, ProbeReplied(401, auth)) == Err(NoAuthService)
  {
  }

  /** The Basic check ignores case: `Basic realm="registry"`, `BASIC`, `basic` all qualify. */
  lemma BasicIgnoresCase(b: char, a: char, s: char, i: char, c: char, rest: string)
    requires b in "bB" && a in "aA" && s in "sS" && i in "iI" && c in "cC"
    ensures "basic" <= ToLower([b, a, s, i, c] + rest)
  {
    var h := [b, a, s, i, c] + rest;
    assert ToLower(h)[..5] == [LowerRune(b), LowerRune(a), LowerRune(s), LowerRune(i), LowerRune(c)];
  }
}

=== FILE: paths.dfy ===
/** The request paths and token scopes the client builds (client.go:67, 78, 91-92, 102-103)
    and the rewrite of a manifest path into the path of its deletion (client.go:159-161).
    The paths follow the Docker Registry HTTP API V2: `/v2/<name>/tags/list` and
    `/v2/<name>/manifests/<reference>`. */
module Paths {
  import opened Wrappers
  import opened Text

  /** The repository listing and the scope its token must cover. */
  const CatalogPath := "/v2/_catalog"
  const CatalogScope := "registry:catalog:*"

  const ScopeHead := "repository:"
  const ScopeTail := ":*"
  const TagsHead := "/v2/"
  const TagsTail := "/tags/list"
  const ManifestsSep := "/manifests/"

  /** The scope of every call about one repository: `repository:<repo>:*`. */
  function RepoScope(repo: string): string {
    ScopeHead + repo + ScopeTail
  }

  /** The tag listing of a repository: `/v2/<repo>/tags/list`. */
  function TagsPath(repo: string): string {
    TagsHead + repo + TagsTail
  }

  /** The manifest of a repository at a tag or digest: `/v2/<repo>/manifests/<reference>`. */
  function ManifestPath(repo: string, reference: string): string {
    TagsHead + repo + ManifestsSep + reference
  }

  /** The text between a known head and a known tail, if `s` has that shape. */
  function Between(s: string, head: string, tail: string): (r: Option<string>)
    ensures r.Some? ==> s == head + r.value + tail
    ensures (exists mid :: s == head + mid + tail) ==> r.Some?
  {
    if |head| + |tail| <= |s| && s[..|head|] == head && s[|s| - |tail|..] == tail then
      Some(s[|head|..|s| - |tail|])
    else
      None
  }

  /** The repository a scope is about, if it is a repository scope. */
  function ScopeRepo(scope: string): Option<string> {
    Between(scope, ScopeHead, ScopeTail)
  }

  /** The repository whose tags a path lists, if it is a tag-listing path. */
  function TagsPathRepo(path: string): Option<string> {
    Between(path, TagsHead, TagsTail)
  }

  /** The repository is recovered from its scope. */
  lemma ScopeRoundTrip(repo: string)
    ensures ScopeRepo(RepoScope(repo)) == Some(repo)
  {
    BetweenRoundTrip(ScopeHead, repo, ScopeTail);
  }

  /** Distinct repositories have distinct scopes, hence distinct cached tokens. */
  lemma RepoScopeInjective(a: string, b: string)
    requires RepoScope(a) == RepoScope(b)
    ensures a == b
  {
    ScopeRoundTrip(a);
    ScopeRoundTrip(b);
  }

  /** The repository is recovered from its tag-listing path. */
  lemma TagsPathRoundTrip(repo: string)
    ensures TagsPathRepo(TagsPath(repo)) == Some(repo)
  {
    BetweenRoundTrip(TagsHead, repo, TagsTail);
  }

  /** The middle of a concatenation is what `Between` extracts. */
  lemma BetweenRoundTrip(head: string, mid: string, tail: string)
    ensures Between(head + mid + tail, head, tail) == Some(mid)
  {
    var s := head + mid + tail;
    assert s[..|head|] == head;
    assert s[|s| - |tail|..] == tail;
    assert s[|head|..|s| - |tail|] == mid;
  }

  /** `strings.Split(path, "/manifests/")` has a second element: the path holds the separator. */
  predicate HoldsSeparator(path: string): (b: bool)
    ensures b <==> exists k :: OccursAt(path, ManifestsSep, k)
  {
    IndexFrom(path, ManifestsSep, 0).Some?
  }

  /** A manifest path holds the separator right after `/v2/<repo>`. */
  lemma ManifestPathHoldsSeparator(repo: string, reference: string)
    ensures OccursAt(ManifestPath(repo, reference), ManifestsSep, |TagsHead| + |repo|)
    ensures HoldsSeparator(ManifestPath(repo, reference))
  {
    var s := ManifestPath(repo, reference);
    assert s == (TagsHead + repo) + ManifestsSep + reference;
    assert s[..|TagsHead| + |repo|] == TagsHead + repo;
    assert OccursAt(s, ManifestsSep, |TagsHead| + |repo|);
  }

  /** The deletion path as client.go:160-161 writes it: everything before the FIRST
      `/manifests/`, then `/manifests/<digest>`. */
  function DeletePathAsWritten(path: string, digest: string): string {
    BeforeFirst(path, ManifestsSep) + ManifestsSep + digest
  }

  /** The deletion path as intended: the reference after the LAST `/manifests/` is replaced by
      the digest, so the repository part of the path is kept whatever it contains. */
  function DeletePath(path: string, digest: string): string {
    BeforeLast(path, ManifestsSep) + ManifestsSep + digest
  }

  /** A tag holds no '/' (tags are `[A-Za-z0-9_][A-Za-z0-9_.-]*` in the registry API), so the
      deletion path of a manifest path names the same repository, now at the digest. */
  lemma DeletePathKeepsRepository(repo: string, tag: string, digest: string)
    requires '/' !in tag
    ensures DeletePath(ManifestPath(repo, tag), digest) == ManifestPath(repo, digest)
  {
    var s := ManifestPath(repo, tag);
    var p := |TagsHead| + |repo|;
    assert s == (TagsHead + repo) + ManifestsSep + tag;
    assert s[..p] == TagsHead + repo;
    assert OccursAt(s, ManifestsSep, p);
    var r := BeforeLast(s, ManifestsSep);
    assert OccursAt(s, ManifestsSep, |r|);
    assert s[|r| + 10] == '/' by {
      assert s[|r|..|r| + |ManifestsSep|][10] == ManifestsSep[10];
    }
    forall k | p + |ManifestsSep| <= k < |s|
      ensures s[k] != '/'
    {
      assert s[k] == tag[k - p - |ManifestsSep|];
    }
    assert |r| <= p;
    assert r == s[..p];
  }

  /** No `/manifests/` of the manifest path starts inside `/v2/<repo>`: the first one is the
      separator before the reference. Fails for a repository such as `manifests/app`,
      `proj/manifests/app` or `proj/manifests`. */
  predicate SeparatorAfterRepository(repo: string, tag: string) {
    forall k :: 0 <= k < |TagsHead| + |repo| ==> !OccursAt(ManifestPath(repo, tag), ManifestsSep, k)
  }

  /** The rewrite as written keeps the repository exactly when no `/manifests/` starts inside
      `/v2/<repo>`; otherwise the deletion goes to a shorter path. */
  lemma AsWrittenKeepsRepository(repo: string, tag: string, digest: string)
    ensures DeletePathAsWritten(ManifestPath(repo, tag), digest) == ManifestPath(repo, digest)
      <==> SeparatorAfterRepository(repo, tag)
  {
    var s := ManifestPath(repo, tag);
    var p := |TagsHead| + |repo|;
    assert s == (TagsHead + repo) + ManifestsSep + tag;
    assert s[..p] == TagsHead + repo;
    assert OccursAt(s, ManifestsSep, p);
    var r := BeforeFirst(s, ManifestsSep);
    if SeparatorAfterRepository(repo, tag) {
      BeforeFirstAt(s, ManifestsSep, p);
    } else {
      assert |r| < p;
      assert |DeletePathAsWritten(s, digest)| < |ManifestPath(repo, digest)|;
    }
  }

  /** `/v2/proj/manifests/app` holds `/manifests/` at index 8 and nowhere before. */
  lemma NestedRepositoryPrefix()
    ensures OccursAt(TagsHead + "proj/manifests/app", ManifestsSep, 8)
    ensures forall k :: 0 <= k < 8 ==> !OccursAt(TagsHead + "proj/manifests/app", ManifestsSep, k)
    ensures (TagsHead + "proj/manifests/app")[..8] == "/v2/proj"
  {
    var head := TagsHead + "proj/manifests/app";
    assert head[8..19] == ManifestsSep;
    forall k | 0 <= k < 8
      ensures !OccursAt(head, ManifestsSep, k)
    {
      assert head[k..k + 11][1] == head[k + 1];
    }
  }

  /** In `/v2/proj/manifests/app/manifests/v1` the first `/manifests/` follows `/v2/proj`. */
  lemma FirstSeparatorAfterProj()
    ensures BeforeFirst(ManifestPath("proj/manifests/app", "v1"), ManifestsSep) == "/v2/proj"
  {
    var head := TagsHead + "proj/manifests/app";
    var s := ManifestPath("proj/manifests/app", "v1");
    var rest := ManifestsSep + "v1";
    assert s == head + rest;
    NestedRepositoryPrefix();
    forall k | 0 <= k <= 8
      ensures OccursAt(s, ManifestsSep, k) <==> OccursAt(head, ManifestsSep, k)
    {
      OccursInPrefix(head, rest, ManifestsSep, k);
    }
    BeforeFirstAt(s, ManifestsSep, 8);
    assert s[..8] == head[..8];
  }

  /** The rewrite as written sends the deletion for repository `proj/manifests/app` (a valid
      repository name) to repository `proj`. */
  lemma AsWrittenDeletesInOtherRepository(digest: string)
    ensures DeletePathAsWritten(ManifestPath("proj/manifests/app", "v1"), digest)
      == ManifestPath("proj", digest)
    ensures ManifestPath("proj", digest) != ManifestPath("proj/manifests/app", digest)
  {
    FirstSeparatorAfterProj();
    assert TagsHead + "proj" == "/v2/proj";
    var right := ManifestPath("proj/manifests/app", digest);
    assert |ManifestPath("proj", digest)| + 14 == |right|;
  }
}

=== FILE: retention.dfy ===
/** The retention planner `Clean(keepTags...)` (client.go:106-143). Every listed tag is resolved
    to its manifest digest and filed under it; a digest none of whose tags is kept is deleted
    once, through the first tag filed under it. Registry replies are inputs: the catalog with
    each repository's tag listing, and the digest lookup as a deterministic function (a failed
    lookup answers "", client.go:93-95). */
module Retention {
  import opened Wrappers

  /** A tag of a repository. */
  datatype Ref = Ref(repo: string, tag: string)

  /** A repository's tag listing: failed, or the decoded tags (empty when null). */
  datatype TagListing = TagsFailed | Tags(tags: seq<string>)

  datatype Entry = Entry(repo: string, listing: TagListing)

  /** The repository listing: failed, or one entry per repository, in catalog order. */
  datatype Catalog = CatalogFailed(err: string) | Catalog(entries: seq<Entry>)

  /** What `Clean` returns, and the tags it calls `DeleteTag` on (in no particular order:
      groups are visited in Go map order). */
  datatype CleanResult = CleanResult(outcome: Outcome<string>, deletes: set<Ref>)

  /** `TagInfo(repo, tag)` as a function of its arguments. */
  type Digests = (string, string) -> string

  function DigestOf(digests: Digests, r: Ref): string {
    digests(r.repo, r.tag)
  }

  /** Go's `m[d]`: the group of a digest, empty when there is none yet. */
  function Lookup(groups: map<string, seq<Ref>>, d: string): seq<Ref> {
    if d in groups then groups[d] else []
  }

  /** One step of client.go:120: the tag is appended to the group of its digest. The source
      calls `TagInfo` twice here; a deterministic lookup gives the same digest both times. */
  function Add(groups: map<string, seq<Ref>>, digests: Digests, repo: string, tag: string): map<string, seq<Ref>> {
    groups[digests(repo, tag) := Lookup(groups, digests(repo, tag)) + [Ref(repo, tag)]]
  }

  /** The inner loop over one repository's tags. */
  function AddTags(groups: map<string, seq<Ref>>, digests: Digests, repo: string, tags: seq<string>): map<string, seq<Ref>>
    decreases |tags|
  {
    if |tags| == 0 then groups
    else AddTags(Add(groups, digests, repo, tags[0]), digests, repo, tags[1..])
  }

  /** One pass of the outer loop; a repository whose tag listing failed is skipped. */
  function AddEntry(groups: map<string, seq<Ref>>, digests: Digests, e: Entry): map<string, seq<Ref>> {
    match e.listing
    case TagsFailed => groups
    case Tags(tags) => AddTags(groups, digests, e.repo, tags)
  }

  /** The outer loop over the repositories. */
  function AddEntries(groups: map<string, seq<Ref>>, digests: Digests, entries: seq<Entry>): map<string, seq<Ref>>
    decreases |entries|
  {
    if |entries| == 0 then groups
    else AddEntries(AddEntry(groups, digests, entries[0]), digests, entries[1..])
  }

  /** No tag of the group is kept (the `del` flag of client.go:130-136). */
  predicate Unkept(group: seq<Ref>, keep: set<string>) {
    forall r :: r in group ==> r.tag !in keep
  }

  /** The tags `DeleteTag` is called on: the first tag of every group with no kept tag. */
  function Deletes(groups: map<string, seq<Ref>>, keep: set<string>): set<Ref> {
    set d | d in groups && |groups[d]| > 0 && Unkept(groups[d], keep) :: groups[d][0]
  }

  /** The `keep` map of client.go:124-127: the tags to retain, as a set. */
  function KeepSet(keepTags: seq<string>): set<string> {
    set t | t in keepTags
  }

  /** `Clean(keepTags...)`: fails only when the repository listing fails, and then deletes
      nothing; otherwise succeeds. */
  function Clean(catalog: Catalog, digests: Digests, keepTags: seq<string>): (r: CleanResult)
    ensures r.outcome.Fail? <==> catalog.CatalogFailed?
    ensures catalog.CatalogFailed? ==> r == CleanResult(Fail(catalog.err), {})
  {
    match catalog
    case CatalogFailed(err) => CleanResult(Fail(err), {})
    case Catalog(entries) =>
      CleanResult(Pass, Deletes(AddEntries(map[], digests, entries), KeepSet(keepTags)))
  }

  // ---------------------------------------------------------------------------------------
  // An independent description of the same decision, in terms of the listed tags.

  /** The tags of a repository listing, in order. */
  function RefsOf(repo: string, tags: seq<string>): (r: seq<Ref>)
    ensures |r| == |tags|
    ensures forall i :: 0 <= i < |tags| ==> r[i] == Ref(repo, tags[i])
  {
    seq(|tags|, i requires 0 <= i < |tags| => Ref(repo, tags[i]))
  }

  /** The tags an entry contributes: none when its listing failed. */
  function Listed(e: Entry): seq<Ref> {
    match e.listing
    case TagsFailed => []
    case Tags(tags) => RefsOf(e.repo, tags)
  }

  /** Every tag visited by `Clean`, in visiting order. */
  function Records(entries: seq<Entry>): seq<Ref>
    decreases |entries|
  {
    if |entries| == 0 then [] else Listed(entries[0]) + Records(entries[1..])
  }

  /** The tags with digest `d`, in order. */
  function WithDigest(refs: seq<Ref>, digests: Digests, d: string): seq<Ref>
    decreases |refs|
  {
    if |refs| == 0 then []
    else (if DigestOf(digests, refs[0]) == d then [refs[0]] else []) + WithDigest(refs[1..], digests, d)
  }

  /** No earlier tag has the digest of tag `i`. */
  predicate FirstOfDigest(refs: seq<Ref>, digests: Digests, i: int)
    requires 0 <= i < |refs|
  {
    forall j :: 0 <= j < i ==> DigestOf(digests, refs[j]) != DigestOf(digests, refs[i])
  }

  /** No tag with digest `d` is kept. */
  predicate NoneKept(refs: seq<Ref>, digests: Digests, d: string, keep: set<string>) {
    forall x :: x in refs && DigestOf(digests, x) == d ==> x.tag !in keep
  }

  /** The retention rule: a tag is deleted exactly when it is the first listed tag of its
      digest and no tag with that digest is kept. */
  predicate IsDeleteTarget(refs: seq<Ref>, digests: Digests, keep: set<string>, x: Ref) {
    exists i :: 0 <= i < |refs| && refs[i] == x && FirstOfDigest(refs, digests, i)
      && NoneKept(refs, digests, DigestOf(digests, x), keep)
  }

  // ---------------------------------------------------------------------------------------
  // The fold builds the digest groups.

  /** Filtering by digest distributes over concatenation. */
  lemma {:induction false} WithDigestAppend(a: seq<Ref>, b: seq<Ref>, digests: Digests, d: string)
    ensures WithDigest(a + b, digests, d) == WithDigest(a, digests, d) + WithDigest(b, digests, d)
    decreases |a|
  {
    if |a| > 0 {
      assert (a + b)[0] == a[0];
      assert (a + b)[1..] == a[1..] + b;
      WithDigestAppend(a[1..], b, digests, d);
    } else {
      assert a + b == b;
    }
  }

  /** A group holds exactly the tags with its digest. */
  lemma {:induction false} WithDigestMembers(refs: seq<Ref>, digests: Digests, d: string)
    ensures forall x :: x in WithDigest(refs, digests, d) <==> x in refs && DigestOf(digests, x) == d
    decreases |refs|
  {
    if |refs| > 0 {
      WithDigestMembers(refs[1..], digests, d);
      assert refs == [refs[0]] + refs[1..];
    }
  }

  /** The inner loop appends the repository's tags to their groups, and files every digest it
      meets. */
  lemma {:induction false} AddTagsGroups(groups: map<string, seq<Ref>>, digests: Digests, repo: string, tags: seq<string>)
    ensures forall d :: Lookup(AddTags(groups, digests, repo, tags), d)
                == Lookup(groups, d) + WithDigest(RefsOf(repo, tags), digests, d)
    ensures forall d :: d in AddTags(groups, digests, repo, tags)
                <==> d in groups || WithDigest(RefsOf(repo, tags), digests, d) != []
    decreases |tags|
  {
    if |tags| > 0 {
      var next := Add(groups, digests, repo, tags[0]);
      AddTagsGroups(next, digests, repo, tags[1..]);
      var head, tail := [Ref(repo, tags[0])], RefsOf(repo, tags[1..]);
      assert RefsOf(repo, tags) == head + tail;
      forall d
        ensures WithDigest(RefsOf(repo, tags), digests, d) == WithDigest(head, digests, d) + WithDigest(tail, digests, d)
      {
        WithDigestAppend(head, tail, digests, d);
      }
    }
  }

  /** One pass of the outer loop files the entry's tags under their digests. */
  lemma AddEntryGroups(groups: map<string, seq<Ref>>, digests: Digests, e: Entry)
    ensures forall d :: Lookup(AddEntry(groups, digests, e), d)
                == Lookup(groups, d) + WithDigest(Listed(e), digests, d)
    ensures forall d :: d in AddEntry(groups, digests, e)
                <==> d in groups || WithDigest(Listed(e), digests, d) != []
  {
    if e.listing.Tags? {
      AddTagsGroups(groups, digests, e.repo, e.listing.tags);
    } else {
      forall d
        ensures Lookup(groups, d) + WithDigest(Listed(e), digests, d) == Lookup(groups, d)
      {
        assert WithDigest([], digests, d) == [];
      }
    }
  }

  /** The outer loop files every visited tag under its digest, in visiting order. */
  lemma {:induction false} AddEntriesGroups(groups: map<string, seq<Ref>>, digests: Digests, entries: seq<Entry>)
    ensures forall d :: Lookup(AddEntries(groups, digests, entries), d)
                == Lookup(groups, d) + WithDigest(Records(entries), digests, d)
    ensures forall d :: d in AddEntries(groups, digests, entries)
                <==> d in groups || WithDigest(Records(entries), digests, d) != []
    decreases |entries|
  {
    if |entries| > 0 {
      var e := entries[0];
      var next := AddEntry(groups, digests, e);
      AddEntryGroups(groups, digests, e);
      AddEntriesGroups(next, digests, entries[1..]);
      forall d
        ensures WithDigest(Records(entries), digests, d)
          == WithDigest(Listed(e), digests, d) + WithDigest(Records(entries[1..]), digests, d)
      {
        WithDigestAppend(Listed(e), Records(entries[1..]), digests, d);
      }
    }
  }

  /** The groups `Clean` builds: each digest met maps to the tags with that digest, in listing
      order, and no other digest is present. Tags whose lookup failed share the group "". */
  lemma GroupsByDigest(digests: Digests, entries: seq<Entry>)
    ensures forall d :: d in AddEntries(map[], digests, entries) <==> WithDigest(Records(entries), digests, d) != []
    ensures forall d :: d in AddEntries(map[], digests, entries) ==>
      AddEntries(map[], digests, entries)[d] == WithDigest(Records(entries), digests, d)
  {
    AddEntriesGroups(map[], digests, entries);
    forall d | d in AddEntries(map[], digests, entries)
      ensures AddEntries(map[], digests, entries)[d] == WithDigest(Records(entries), digests, d)
    {
      assert Lookup(map[], d) == [];
    }
  }

  // ---------------------------------------------------------------------------------------
  // The deletion decision agrees with the retention rule.

  /** The head of a digest's group is the first listed tag with that digest. */
  lemma {:induction false} GroupHeadIsFirst(refs: seq<Ref>, digests: Digests, d: string)
    requires WithDigest(refs, digests, d) != []
    ensures exists i :: 0 <= i < |refs| && refs[i] == WithDigest(refs, digests, d)[0]
                && DigestOf(digests, refs[i]) == d && FirstOfDigest(refs, digests, i)
    decreases |refs|
  {
    if DigestOf(digests, refs[0]) != d {
      GroupHeadIsFirst(refs[1..], digests, d);
      var i :| 0 <= i < |refs[1..]| && refs[1..][i] == WithDigest(refs[1..], digests, d)[0]
        && DigestOf(digests, refs[1..][i]) == d && FirstOfDigest(refs[1..], digests, i);
      assert FirstOfDigest(refs, digests, i + 1) by {
        forall j | 0 <= j < i + 1
          ensures DigestOf(digests, refs[j]) != DigestOf(digests, refs[i + 1])
        {
          if j > 0 {
            assert refs[j] == refs[1..][j - 1];
          }
        }
      }
    } else {
      assert FirstOfDigest(refs, digests, 0);
    }
  }

  /** The first listed tag with a digest heads that digest's group. */
  lemma {:induction false} FirstHeadsGroup(refs: seq<Ref>, digests: Digests, i: nat)
    requires i < |refs| && FirstOfDigest(refs, digests, i)
    ensures WithDigest(refs, digests, DigestOf(digests, refs[i])) != []
    ensures WithDigest(refs, digests, DigestOf(digests, refs[i]))[0] == refs[i]
    decreases i
  {
    if i > 0 {
      var d := DigestOf(digests, refs[i]);
      assert DigestOf(digests, refs[0]) != d;
      assert FirstOfDigest(refs[1..], digests, i - 1) by {
        forall j | 0 <= j < i - 1
          ensures DigestOf(digests, refs[1..][j]) != DigestOf(digests, refs[1..][i - 1])
        {
          assert refs[1..][j] == refs[j + 1];
        }
      }
      FirstHeadsGroup(refs[1..], digests, i - 1);
    }
  }

  /** `Clean` calls `DeleteTag` on exactly the tags the retention rule selects. */
  lemma CleanFollowsRetentionRule(entries: seq<Entry>, digests: Digests, keepTags: seq<string>, x: Ref)
    ensures x in Clean(Catalog(entries), digests, keepTags).deletes
      <==> IsDeleteTarget(Records(entries), digests, KeepSet(keepTags), x)
  {
    var refs := Records(entries);
    var keep := KeepSet(keepTags);
    var groups := AddEntries(map[], digests, entries);
    GroupsByDigest(digests, entries);
    if x in Clean(Catalog(entries), digests, keepTags).deletes {
      var d :| d in groups && |groups[d]| > 0 && Unkept(groups[d], keep) && x == groups[d][0];
      GroupHeadIsFirst(refs, digests, d);
      WithDigestMembers(refs, digests, d);
      var i :| 0 <= i < |refs| && refs[i] == WithDigest(refs, digests, d)[0]
        && DigestOf(digests, refs[i]) == d && FirstOfDigest(refs, digests, i);
      assert refs[i] == x;
    }
    if IsDeleteTarget(refs, digests, keep, x) {
      var i :| 0 <= i < |refs| && refs[i] == x && FirstOfDigest(refs, digests, i)
        && NoneKept(refs, digests, DigestOf(digests, x), keep);
      var d := DigestOf(digests, x);
      FirstHeadsGroup(refs, digests, i);
      WithDigestMembers(refs, digests, d);
      assert d in groups && groups[d] == WithDigest(refs, digests, d);
      assert Unkept(groups[d], keep);
      assert x in Deletes(groups, keep);
    }
  }

  /** A kept tag is never deleted, and neither is any tag sharing a digest with a kept tag. */
  lemma KeptDigestsSurvive(entries: seq<Entry>, digests: Digests, keepTags: seq<string>, x: Ref, y: Ref)
    requires x in Clean(Catalog(entries), digests, keepTags).deletes
    requires y in Records(entries) && DigestOf(digests, y) == DigestOf(digests, x)
    ensures y.tag !in keepTags
  {
    CleanFollowsRetentionRule(entries, digests, keepTags, x);
  }

  /** At most one `DeleteTag` per digest group. */
  lemma OneDeletePerDigest(entries: seq<Entry>, digests: Digests, keepTags: seq<string>, x: Ref, y: Ref)
    requires x in Clean(Catalog(entries), digests, keepTags).deletes
    requires y in Clean(Catalog(entries), digests, keepTags).deletes
    requires DigestOf(digests, x) == DigestOf(digests, y)
    ensures x == y
  {
    var refs := Records(entries);
    CleanFollowsRetentionRule(entries, digests, keepTags, x);
    CleanFollowsRetentionRule(entries, digests, keepTags, y);
    var i :| 0 <= i < |refs| && refs[i] == x && FirstOfDigest(refs, digests, i);
    var j :| 0 <= j < |refs| && refs[j] == y && FirstOfDigest(refs, digests, j);
    assert i == j;
  }

  /** Every deleted tag was listed, and is not itself kept. */
  lemma DeletesAreListedAndUnkept(entries: seq<Entry>, digests: Digests, keepTags: seq<string>, x: Ref)
    requires x in Clean(Catalog(entries), digests, keepTags).deletes
    ensures x in Records(entries) && x.tag !in keepTags
  {
    CleanFollowsRetentionRule(entries, digests, keepTags, x);
  }

  /** The example of two tags on one manifest and a third on another, keeping `a`:
      `c` is deleted, `a` and `b` are not. */
  lemma RetentionExample(digests: Digests)
    requires digests("app", "a") == "sha256:x" && digests("app", "b") == "sha256:x"
    requires digests("app", "c") == "sha256:y"
    ensures Clean(Catalog([Entry("app", Tags(["a", "b", "c"]))]), digests, ["a"]).deletes
      == {Ref("app", "c")}
  {
    var entries := [Entry("app", Tags(["a", "b", "c"]))];
    var deletes := Clean(Catalog(entries), digests, ["a"]).deletes;
    ExampleRecords();
    forall x
      ensures x in deletes <==> x == Ref("app", "c")
    {
      CleanFollowsRetentionRule(entries, digests, ["a"], x);
      if x == Ref("app", "c") {
        ExampleTargetsC(digests);
      }
      if x in deletes {
        ExampleTargetsOnlyC(digests, x);
      }
    }
  }

  /** The example catalog lists its three tags in order. */
  lemma ExampleRecords()
    ensures Records([Entry("app", Tags(["a", "b", "c"]))]) == [Ref("app", "a"), Ref("app", "b"), Ref("app", "c")]
  {
    var entries := [Entry("app", Tags(["a", "b", "c"]))];
    assert Records(entries[1..]) == [];
  }

  /** In the example, `c` is the only tag of its digest and is not kept. */
  lemma ExampleTargetsC(digests: Digests)
    requires digests("app", "a") == "sha256:x" && digests("app", "b") == "sha256:x"
    requires digests("app", "c") == "sha256:y"
    ensures IsDeleteTarget([Ref("app", "a"), Ref("app", "b"), Ref("app", "c")], digests, KeepSet(["a"]), Ref("app", "c"))
  {
    var refs := [Ref("app", "a"), Ref("app", "b"), Ref("app", "c")];
    var keep := KeepSet(["a"]);
    assert FirstOfDigest(refs, digests, 2);
    assert forall y :: y in refs ==> y == refs[0] || y == refs[1] || y == refs[2];
    assert "b" !in keep && "c" !in keep;
    assert NoneKept(refs, digests, "sha256:y", keep);
  }

  /** In the example, `a` is kept and `b` shares its digest, so only `c` can be a target. */
  lemma ExampleTargetsOnlyC(digests: Digests, x: Ref)
    requires digests("app", "a") == "sha256:x" && digests("app", "b") == "sha256:x"
    requires IsDeleteTarget([Ref("app", "a"), Ref("app", "b"), Ref("app", "c")], digests, KeepSet(["a"]), x)
    ensures x == Ref("app", "c")
  {
    var refs := [Ref("app", "a"), Ref("app", "b"), Ref("app", "c")];
    var keep := KeepSet(["a"]);
    assert "a" in keep;
    var i :| 0 <= i < |refs| && refs[i] == x && FirstOfDigest(refs, digests, i)
      && NoneKept(refs, digests, DigestOf(digests, x), keep);
    assert i != 0 by { assert refs[0] in refs; }
    assert i != 1 by { assert refs[0] in refs; }
  }

  /** A repository whose tag listing fails contributes nothing: `Clean` decides as if it were
      not in the catalog, so the other repositories are still cleaned. */
  lemma FailedListingIsSkipped(before: seq<Entry>, repo: string, after: seq<Entry>, digests: Digests, keepTags: seq<string>)
    ensures Clean(Catalog(before + [Entry(repo, TagsFailed)] + after), digests, keepTags)
         == Clean(Catalog(before + after), digests, keepTags)
  {
    SkipFailedGroups(map[], digests, before, repo, after);
  }

  /** The fold over a catalog with a failed listing equals the fold without it. */
  lemma {:induction false} SkipFailedGroups(groups: map<string, seq<Ref>>, digests: Digests, before: seq<Entry>, repo: string, after: seq<Entry>)
    ensures AddEntries(groups, digests, before + [Entry(repo, TagsFailed)] + after)
         == AddEntries(groups, digests, before + after)
    decreases |before|
  {
    var with, without := before + [Entry(repo, TagsFailed)] + after, before + after;
    if |before| == 0 {
      assert with[1..] == after && without == after;
    } else {
      assert with[0] == without[0] == before[0];
      assert with[1..] == before[1..] + [Entry(repo, TagsFailed)] + after;
      assert without[1..] == before[1..] + after;
      SkipFailedGroups(AddEntry(groups, digests, before[0]), digests, before[1..], repo, after);
    }
  }

  /** An empty catalog makes `Clean` a successful no-op. */
  lemma EmptyCatalog(digests: Digests, keepTags: seq<string>)
    ensures Clean(Catalog([]), digests, keepTags) == CleanResult(Pass, {})
  {
  }

  // ---------------------------------------------------------------------------------------
  // Re-running `Clean` after a run.

  /** The manifest a tag points at: a digest is deleted within one repository. */
  function Manifest(digests: Digests, x: Ref): (string, string) {
    (x.repo, DigestOf(digests, x))
  }

  /** The manifests a run removed. `DeleteTag(v[0].repo, v[0].tag)` (client.go:138) deletes the
      digest in the repository of `v[0]` only, and a tag whose lookup gave "" names no manifest. */
  function DeletedManifests(deletes: set<Ref>, digests: Digests): set<(string, string)> {
    set x | x in deletes && DigestOf(digests, x) != "" :: Manifest(digests, x)
  }

  /** The tags of a repository that survive the removal of the manifests in `gone`. */
  function Surviving(repo: string, tags: seq<string>, digests: Digests, gone: set<(string, string)>): seq<string>
    decreases |tags|
  {
    if |tags| == 0 then []
    else (if (repo, digests(repo, tags[0])) in gone then [] else [tags[0]]) + Surviving(repo, tags[1..], digests, gone)
  }

  /** An entry after the registry removed the manifests in `gone`. A failed listing is taken
      to fail again. */
  function PruneEntry(e: Entry, digests: Digests, gone: set<(string, string)>): Entry {
    match e.listing
    case TagsFailed => e
    case Tags(tags) => Entry(e.repo, Tags(Surviving(e.repo, tags, digests, gone)))
  }

  /** The catalog after the registry removed the manifests in `gone`: deleting a manifest by
      digest removes every tag of that repository pointing at it. */
  function Prune(entries: seq<Entry>, digests: Digests, gone: set<(string, string)>): seq<Entry>
    decreases |entries|
  {
    if |entries| == 0 then []
    else [PruneEntry(entries[0], digests, gone)] + Prune(entries[1..], digests, gone)
  }

  /** Every digest is listed in one repository only. */
  predicate OneRepositoryPerDigest(entries: seq<Entry>, digests: Digests) {
    forall x, y :: x in Records(entries) && y in Records(entries) && DigestOf(digests, x) == DigestOf(digests, y)
      ==> x.repo == y.repo
  }

  /** The catalog a second run of `Clean` sees. */
  function AfterRun(entries: seq<Entry>, digests: Digests, keepTags: seq<string>): seq<Entry> {
    Prune(entries, digests, DeletedManifests(Clean(Catalog(entries), digests, keepTags).deletes, digests))
  }

  /** The surviving tags are the listed ones whose manifest is not gone. */
  lemma {:induction false} SurvivingMembers(repo: string, tags: seq<string>, digests: Digests, gone: set<(string, string)>)
    ensures forall t :: t in Surviving(repo, tags, digests, gone) <==> t in tags && (repo, digests(repo, t)) !in gone
    decreases |tags|
  {
    if |tags| > 0 {
      SurvivingMembers(repo, tags[1..], digests, gone);
      assert tags == [tags[0]] + tags[1..];
    }
  }

  /** Pruning an entry drops exactly its tags whose manifest is gone. */
  lemma PrunedListed(e: Entry, digests: Digests, gone: set<(string, string)>)
    ensures forall x :: x in Listed(PruneEntry(e, digests, gone))
              <==> x in Listed(e) && Manifest(digests, x) !in gone
  {
    if e.listing.Tags? {
      SurvivingMembers(e.repo, e.listing.tags, digests, gone);
      var kept := Surviving(e.repo, e.listing.tags, digests, gone);
      forall x
        ensures x in RefsOf(e.repo, kept) <==> x in RefsOf(e.repo, e.listing.tags) && Manifest(digests, x) !in gone
      {
        if x in RefsOf(e.repo, kept) {
          var i :| 0 <= i < |kept| && RefsOf(e.repo, kept)[i] == x;
          assert kept[i] in kept;
          var j :| 0 <= j < |e.listing.tags| && e.listing.tags[j] == kept[i];
          assert RefsOf(e.repo, e.listing.tags)[j] == x;
        }
        if x in RefsOf(e.repo, e.listing.tags) && Manifest(digests, x) !in gone {
          var i :| 0 <= i < |e.listing.tags| && RefsOf(e.repo, e.listing.tags)[i] == x;
          assert e.listing.tags[i] in e.listing.tags;
          var j :| 0 <= j < |kept| && kept[j] == e.listing.tags[i];
          assert RefsOf(e.repo, kept)[j] == x;
        }
      }
    }
  }

  /** After pruning, the visited tags are the earlier ones whose manifest is not gone. */
  lemma {:induction false} PrunedRecords(entries: seq<Entry>, digests: Digests, gone: set<(string, string)>)
    ensures forall x :: x in Records(Prune(entries, digests, gone))
              <==> x in Records(entries) && Manifest(digests, x) !in gone
    decreases |entries|
  {
    if |entries| > 0 {
      var pruned := Prune(entries, digests, gone);
      PrunedRecords(entries[1..], digests, gone);
      PrunedListed(entries[0], digests, gone);
      assert pruned[0] == PruneEntry(entries[0], digests, gone);
      assert pruned[1..] == Prune(entries[1..], digests, gone);
      assert Records(pruned) == Listed(pruned[0]) + Records(pruned[1..]);
    }
  }

  /** A digest with no kept tag among the remaining tags had none before the removal either,
      provided every removed manifest's digest had no kept tag. */
  lemma StillUnkept(entries: seq<Entry>, digests: Digests, keep: set<string>, deletes: set<Ref>, d: string)
    requires forall z :: z in deletes ==> NoneKept(Records(entries), digests, DigestOf(digests, z), keep)
    requires NoneKept(Records(Prune(entries, digests, DeletedManifests(deletes, digests))), digests, d, keep)
    ensures NoneKept(Records(entries), digests, d, keep)
  {
    var gone := DeletedManifests(deletes, digests);
    PrunedRecords(entries, digests, gone);
    forall y | y in Records(entries) && DigestOf(digests, y) == d
      ensures y.tag !in keep
    {
      if Manifest(digests, y) in gone {
        var z :| z in deletes && DigestOf(digests, z) != "" && Manifest(digests, z) == Manifest(digests, y);
      }
    }
  }

  /** No tag sharing a digest with a tag `Clean` deletes is kept. */
  lemma CleanDeletesUnkept(entries: seq<Entry>, digests: Digests, keepTags: seq<string>)
    ensures forall z :: z in Clean(Catalog(entries), digests, keepTags).deletes
              ==> NoneKept(Records(entries), digests, DigestOf(digests, z), KeepSet(keepTags))
  {
    forall z | z in Clean(Catalog(entries), digests, keepTags).deletes
      ensures NoneKept(Records(entries), digests, DigestOf(digests, z), KeepSet(keepTags))
    {
      CleanFollowsRetentionRule(entries, digests, keepTags, z);
    }
  }

  /** A listed digest none of whose tags is kept has one of its tags deleted. */
  lemma UnkeptDigestIsDeleted(entries: seq<Entry>, digests: Digests, keepTags: seq<string>, x: Ref)
    requires x in Records(entries)
    requires NoneKept(Records(entries), digests, DigestOf(digests, x), KeepSet(keepTags))
    ensures exists y :: y in Clean(Catalog(entries), digests, keepTags).deletes
              && DigestOf(digests, y) == DigestOf(digests, x)
  {
    var refs, d := Records(entries), DigestOf(digests, x);
    WithDigestMembers(refs, digests, d);
    assert x in WithDigest(refs, digests, d);
    GroupHeadIsFirst(refs, digests, d);
    var i :| 0 <= i < |refs| && refs[i] == WithDigest(refs, digests, d)[0]
      && DigestOf(digests, refs[i]) == d && FirstOfDigest(refs, digests, i);
    CleanFollowsRetentionRule(entries, digests, keepTags, refs[i]);
  }

  /** What a second run with the same keep tags still deletes: a tag whose lookup failed, or
      a tag of a digest the first run deleted only in another repository. */
  lemma RerunDeletesOnlyLeftovers(entries: seq<Entry>, digests: Digests, keepTags: seq<string>, x: Ref)
    requires x in Clean(Catalog(AfterRun(entries, digests, keepTags)), digests, keepTags).deletes
    ensures x in Records(entries)
    ensures DigestOf(digests, x) == ""
      || exists y :: y in Clean(Catalog(entries), digests, keepTags).deletes && y in Records(entries)
           && DigestOf(digests, y) == DigestOf(digests, x) && y.repo != x.repo
  {
    var first := Clean(Catalog(entries), digests, keepTags).deletes;
    var gone := DeletedManifests(first, digests);
    var rest := AfterRun(entries, digests, keepTags);
    var d, keep := DigestOf(digests, x), KeepSet(keepTags);
    CleanFollowsRetentionRule(rest, digests, keepTags, x);
    PrunedRecords(entries, digests, gone);
    if d != "" {
      CleanDeletesUnkept(entries, digests, keepTags);
      StillUnkept(entries, digests, keep, first, d);
      UnkeptDigestIsDeleted(entries, digests, keepTags, x);
      var y :| y in first && DigestOf(digests, y) == d;
      DeletesAreListedAndUnkept(entries, digests, keepTags, y);
      assert Manifest(digests, y) in gone;
      assert y.repo != x.repo;
    }
  }

  /** When every lookup succeeds and each digest is listed in one repository only, re-running
      `Clean` with the same keep tags deletes nothing. */
  lemma RerunDeletesNothing(entries: seq<Entry>, digests: Digests, keepTags: seq<string>)
    requires forall x :: x in Records(entries) ==> DigestOf(digests, x) != ""
    requires OneRepositoryPerDigest(entries, digests)
    ensures Clean(Catalog(AfterRun(entries, digests, keepTags)), digests, keepTags).deletes == {}
  {
    forall x
      ensures x !in Clean(Catalog(AfterRun(entries, digests, keepTags)), digests, keepTags).deletes
    {
      if x in Clean(Catalog(AfterRun(entries, digests, keepTags)), digests, keepTags).deletes {
        RerunDeletesOnlyLeftovers(entries, digests, keepTags, x);
      }
    }
  }

  /** A tag whose lookup failed names no manifest, so every run hands it to `DeleteTag`
      again. */
  lemma RerunRepeatsFailedLookup(digests: Digests)
    requires digests("app", "x") == ""
    ensures Clean(Catalog([Entry("app", Tags(["x"]))]), digests, []).deletes == {Ref("app", "x")}
    ensures AfterRun([Entry("app", Tags(["x"]))], digests, []) == [Entry("app", Tags(["x"]))]
  {
    var entries := [Entry("app", Tags(["x"]))];
    assert Records(entries) == [Ref("app", "x")] by {
      assert Records(entries[1..]) == [];
    }
    SingleTagDeleted(entries, digests, Ref("app", "x"));
    assert DeletedManifests({Ref("app", "x")}, digests) == {};
    assert Surviving("app", ["x"], digests, {}) == ["x"] by {
      assert Surviving("app", ["x"][1..], digests, {}) == [];
    }
    assert Prune(entries[1..], digests, {}) == [];
  }

  /** A digest tagged in repositories `A` and `B`, none kept, is deleted in `A` only; the
      second run deletes it in `B`. */
  lemma RerunReachesOtherRepository(digests: Digests)
    requires digests("A", "x") == "d" && digests("B", "y") == "d"
    ensures Clean(Catalog([Entry("A", Tags(["x"])), Entry("B", Tags(["y"]))]), digests, []).deletes == {Ref("A", "x")}
    ensures AfterRun([Entry("A", Tags(["x"])), Entry("B", Tags(["y"]))], digests, []) == [Entry("A", Tags([])), Entry("B", Tags(["y"]))]
    ensures Clean(Catalog([Entry("A", Tags([])), Entry("B", Tags(["y"]))]), digests, []).deletes == {Ref("B", "y")}
  {
    var entries := [Entry("A", Tags(["x"])), Entry("B", Tags(["y"]))];
    var gone := {("A", "d")};
    TwoRepositoriesDeleteFirst(digests);
    assert DeletedManifests({Ref("A", "x")}, digests) == gone;
    assert Surviving("A", ["x"], digests, gone) == [] by {
      assert Surviving("A", ["x"][1..], digests, gone) == [];
    }
    assert Surviving("B", ["y"], digests, gone) == ["y"] by {
      assert Surviving("B", ["y"][1..], digests, gone) == [];
    }
    assert Prune(entries[1..], digests, gone) == [Entry("B", Tags(["y"]))] by {
      assert entries[1..][1..] == [];
    }
    var rest := [Entry("A", Tags([])), Entry("B", Tags(["y"]))];
    assert Records(rest) == [Ref("B", "y")] by {
      assert Records(rest[1..]) == [Ref("B", "y")] by {
        assert rest[1..][1..] == [];
      }
    }
    SingleTagDeleted(rest, digests, Ref("B", "y"));
  }

  /** A catalog listing the single tag `r` deletes exactly `r` when nothing is kept. */
  lemma SingleTagDeleted(entries: seq<Entry>, digests: Digests, r: Ref)
    requires Records(entries) == [r]
    ensures Clean(Catalog(entries), digests, []).deletes == {r}
  {
    var refs := Records(entries);
    forall x
      ensures x in Clean(Catalog(entries), digests, []).deletes <==> x == r
    {
      CleanFollowsRetentionRule(entries, digests, [], x);
      if x == r {
        assert FirstOfDigest(refs, digests, 0);
      }
    }
  }

  /** With `x` in `A` and `y` in `B` on one digest and nothing kept, only `x` is deleted. */
  lemma TwoRepositoriesDeleteFirst(digests: Digests)
    requires digests("A", "x") == "d" && digests("B", "y") == "d"
    ensures Clean(Catalog([Entry("A", Tags(["x"])), Entry("B", Tags(["y"]))]), digests, []).deletes == {Ref("A", "x")}
  {
    var entries := [Entry("A", Tags(["x"])), Entry("B", Tags(["y"]))];
    var refs := [Ref("A", "x"), Ref("B", "y")];
    assert Records(entries) == refs by {
      assert Records(entries[1..]) == [Ref("B", "y")] by {
        assert entries[1..][1..] == [];
      }
    }
    forall x
      ensures x in Clean(Catalog(entries), digests, []).deletes <==> x == Ref("A", "x")
    {
      CleanFollowsRetentionRule(entries, digests, [], x);
      if x == Ref("A", "x") {
        assert FirstOfDigest(refs, digests, 0);
      }
      if IsDeleteTarget(refs, digests, KeepSet([]), x) {
        var i :| 0 <= i < |refs| && refs[i] == x && FirstOfDigest(refs, digests, i);
        assert i == 0;
      }
    }
  }

  // ---------------------------------------------------------------------------------------
  // A planner that deletes an unkept digest in every repository listing it.

  /** No earlier tag of the same repository points at the manifest of tag `i`. */
  predicate FirstInRepository(refs: seq<Ref>, digests: Digests, i: int)
    requires 0 <= i < |refs|
  {
    forall j :: 0 <= j < i ==> Manifest(digests, refs[j]) != Manifest(digests, refs[i])
  }

  /** `Clean` deleting, for every digest with no kept tag, the first tag in each repository
      listing that digest, so that each of its manifests is removed. */
  function CleanEveryRepository(catalog: Catalog, digests: Digests, keepTags: seq<string>): (r: CleanResult)
    ensures r.outcome.Fail? <==> catalog.CatalogFailed?
    ensures catalog.CatalogFailed? ==> r == CleanResult(Fail(catalog.err), {})
    ensures catalog.Catalog? ==> forall x :: x in r.deletes ==> x in Records(catalog.entries) && x.tag !in keepTags
  {
    match catalog
    case CatalogFailed(err) => CleanResult(Fail(err), {})
    case Catalog(entries) =>
      var refs, keep := Records(entries), KeepSet(keepTags);
      CleanResult(Pass, set i | 0 <= i < |refs| && FirstInRepository(refs, digests, i)
                              && NoneKept(refs, digests, DigestOf(digests, refs[i]), keep) :: refs[i])
  }

  /** The catalog a second run sees after the corrected planner ran. */
  function AfterEveryRepository(entries: seq<Entry>, digests: Digests, keepTags: seq<string>): seq<Entry> {
    Prune(entries, digests, DeletedManifests(CleanEveryRepository(Catalog(entries), digests, keepTags).deletes, digests))
  }

  /** Every tag has an earlier or equal tag that is first of its manifest. */
  lemma {:induction false} FirstOfManifest(refs: seq<Ref>, digests: Digests, k: nat)
    requires k < |refs|
    ensures exists i :: 0 <= i <= k && Manifest(digests, refs[i]) == Manifest(digests, refs[k])
              && FirstInRepository(refs, digests, i)
    decreases k
  {
    if !FirstInRepository(refs, digests, k) {
      var j :| 0 <= j < k && Manifest(digests, refs[j]) == Manifest(digests, refs[k]);
      FirstOfManifest(refs, digests, j);
    }
  }

  /** The corrected planner deletes every manifest whose digest has no kept tag. */
  lemma EveryRepositoryIsCleaned(entries: seq<Entry>, digests: Digests, keepTags: seq<string>, x: Ref)
    requires x in Records(entries)
    requires NoneKept(Records(entries), digests, DigestOf(digests, x), KeepSet(keepTags))
    ensures exists y :: y in CleanEveryRepository(Catalog(entries), digests, keepTags).deletes
              && Manifest(digests, y) == Manifest(digests, x)
    ensures DigestOf(digests, x) != "" ==>
      Manifest(digests, x) in DeletedManifests(CleanEveryRepository(Catalog(entries), digests, keepTags).deletes, digests)
  {
    var refs := Records(entries);
    var k :| 0 <= k < |refs| && refs[k] == x;
    FirstOfManifest(refs, digests, k);
    var i :| 0 <= i <= k && Manifest(digests, refs[i]) == Manifest(digests, refs[k])
      && FirstInRepository(refs, digests, i);
    assert refs[i] in CleanEveryRepository(Catalog(entries), digests, keepTags).deletes;
  }

  /** Re-running the corrected planner with the same keep tags deletes only tags whose lookup
      failed, and nothing when every lookup succeeds. */
  lemma CorrectedRerunDeletesNothing(entries: seq<Entry>, digests: Digests, keepTags: seq<string>)
    ensures forall x :: x in CleanEveryRepository(Catalog(AfterEveryRepository(entries, digests, keepTags)), digests, keepTags).deletes
              ==> DigestOf(digests, x) == ""
    ensures (forall x :: x in Records(entries) ==> DigestOf(digests, x) != "") ==>
      CleanEveryRepository(Catalog(AfterEveryRepository(entries, digests, keepTags)), digests, keepTags).deletes == {}
  {
    var first := CleanEveryRepository(Catalog(entries), digests, keepTags).deletes;
    var gone := DeletedManifests(first, digests);
    var rest := AfterEveryRepository(entries, digests, keepTags);
    var refs, left, keep := Records(entries), Records(rest), KeepSet(keepTags);
    PrunedRecords(entries, digests, gone);
    forall x | x in left && DigestOf(digests, x) != ""
      ensures !NoneKept(left, digests, DigestOf(digests, x), keep)
    {
      if NoneKept(left, digests, DigestOf(digests, x), keep) {
        StillUnkept(entries, digests, keep, first, DigestOf(digests, x));
        EveryRepositoryIsCleaned(entries, digests, keepTags, x);
      }
    }
  }

  /** When each digest is listed in one repository only, the corrected planner makes the
      same deletions as `Clean`. */
  lemma CorrectedAgreesInOneRepository(entries: seq<Entry>, digests: Digests, keepTags: seq<string>)
    requires OneRepositoryPerDigest(entries, digests)
    ensures CleanEveryRepository(Catalog(entries), digests, keepTags) == Clean(Catalog(entries), digests, keepTags)
  {
    var refs := Records(entries);
    forall i, j | 0 <= j < i < |refs| && DigestOf(digests, refs[j]) == DigestOf(digests, refs[i])
      ensures refs[j].repo == refs[i].repo
    {
      assert refs[j] in refs && refs[i] in refs;
    }
    forall x
      ensures x in CleanEveryRepository(Catalog(entries), digests, keepTags).deletes
          <==> x in Clean(Catalog(entries), digests, keepTags).deletes
    {
      CleanFollowsRetentionRule(entries, digests, keepTags, x);
    }
  }
}

=== FILE: text.dfy ===
/** The handful of string operations of Go's `strings` package that the client relies on.
    A Go string is modelled as the sequence of its runes. */
module Text {
  import opened Wrappers

  /** Go's `unicode.ToLower`, restricted to the runes whose lower case is an ASCII letter:
      'A'..'Z', U+0130 (capital I with dot above, lower-cased to 'i') and U+212A (Kelvin sign,
      lower-cased to 'k'). Every other rune Go lower-cases maps to a non-ASCII rune, which is
      left unchanged here; that keeps every test of an ASCII prefix exact. */
  function LowerRune(c: char): (r: char)
    ensures 'a' <= r <= 'z' ==> (r == c || c == (r as int - 32) as char || c == '\U{0130}' || c == '\U{212A}')
    ensures 'A' <= c <= 'Z' ==> 'a' <= r <= 'z'
  {
    if 'A' <= c <= 'Z' then (c as int + 32) as char
    else if c == '\U{0130}' then 'i'
    else if c == '\U{212A}' then 'k'
    else c
  }

  /** Go's `strings.ToLower`, rune by rune. */
  function ToLower(s: string): (r: string)
    ensures |r| == |s|
    ensures forall i :: 0 <= i < |s| ==> r[i] == LowerRune(s[i])
  {
    seq(|s|, i requires 0 <= i < |s| => LowerRune(s[i]))
  }

  /** `pat` occurs in `s` starting at index `k`. */
  predicate OccursAt(s: string, pat: string, k: int) {
    0 <= k && k + |pat| <= |s| && s[k..k + |pat|] == pat
  }

  /** The first occurrence of `pat` in `s` at or after index `i`. */
  function IndexFrom(s: string, pat: string, i: nat): (r: Option<nat>)
    requires i <= |s|
    ensures r.Some? ==> i <= r.value && OccursAt(s, pat, r.value)
    ensures forall k :: i <= k && OccursAt(s, pat, k) ==> r.Some? && r.value <= k
    decreases |s| - i
  {
    if OccursAt(s, pat, i) then Some(i)
    else if i == |s| then None
    else IndexFrom(s, pat, i + 1)
  }

  /** The last occurrence of `pat` in `s` at an index below `n`. */
  function LastIndexBelow(s: string, pat: string, n: nat): (r: Option<nat>)
    ensures r.Some? ==> r.value < n && OccursAt(s, pat, r.value)
    ensures forall k :: k < n && OccursAt(s, pat, k) ==> r.Some? && k <= r.value
    decreases n
  {
    if n == 0 then None
    else if OccursAt(s, pat, n - 1) then Some(n - 1)
    else LastIndexBelow(s, pat, n - 1)
  }

  /** Go's `strings.Split(s, sep)[0]`: the text before the first occurrence of `sep`, or all
      of `s` when `sep` does not occur. (Go splits around every rune for an empty `sep`.) */
  function BeforeFirst(s: string, sep: string): (r: string)
    requires |sep| > 0
    ensures r <= s
    ensures forall k :: 0 <= k < |r| ==> !OccursAt(s, sep, k)
    ensures (exists k :: OccursAt(s, sep, k)) ==> OccursAt(s, sep, |r|)
    ensures (forall k :: !OccursAt(s, sep, k)) ==> r == s
  {
    match IndexFrom(s, sep, 0)
    case Some(k) => s[..k]
    case None => s
  }

  /** The text before the last occurrence of `sep`, or all of `s` when `sep` does not occur. */
  function BeforeLast(s: string, sep: string): (r: string)
    ensures r <= s
    ensures forall k :: OccursAt(s, sep, k) ==> k <= |r|
    ensures (exists k :: OccursAt(s, sep, k)) ==> OccursAt(s, sep, |r|)
    ensures (forall k :: !OccursAt(s, sep, k)) ==> r == s
  {
    match LastIndexBelow(s, sep, |s| + 1)
    case Some(k) => s[..k]
    case None => s
  }

  /** A prefix made of two parts splits into a prefix and a prefix of the remainder. */
  lemma PrefixSplit(a: string, b: string, h: string)
    requires a + b <= h
    ensures a <= h && b <= h[|a|..]
  {
    assert h[..|a|] == (a + b)[..|a|];
    assert h[|a|..][..|b|] == (a + b)[|a|..];
  }

  /** Two consecutive prefixes join into one. */
  lemma PrefixJoin(a: string, b: string, h: string)
    requires a <= h && b <= h[|a|..]
    ensures a + b <= h
  {
    assert h[..|a| + |b|] == h[..|a|] + h[|a|..][..|b|];
  }

  /** An occurrence with none before it is the first one. */
  lemma BeforeFirstAt(s: string, sep: string, p: nat)
    requires |sep| > 0 && OccursAt(s, sep, p)
    requires forall k :: 0 <= k < p ==> !OccursAt(s, sep, k)
    ensures BeforeFirst(s, sep) == s[..p]
  {
    var r := BeforeFirst(s, sep);
    assert OccursAt(s, sep, |r|);
    assert |r| == p;
  }

  /** An occurrence that ends within `a` is unaffected by what follows `a`. */
  lemma OccursInPrefix(a: string, b: string, sep: string, k: nat)
    requires k + |sep| <= |a|
    ensures OccursAt(a + b, sep, k) <==> OccursAt(a, sep, k)
  {
    assert (a + b)[k..k + |sep|] == a[k..k + |sep|];
  }
}

=== FILE: tokens.dfy ===
/** The bearer token cache (client.go:175-196). A cached token is re-validated with one
    authenticated probe of `<url>/v2/` before reuse; otherwise a fresh token is requested from
    the issuer with HTTP Basic credentials. Failures are swallowed: the caller gets "". */
module Tokens {
  import opened Wrappers
  import opened Http
  import opened Negotiate

  /** The issuer's reply: a transport failure, or a status code with the `token` field of the
      JSON body ("" when absent). */
  datatype IssuerReply = IssuerFailed(err: string) | IssuerReplied(status: int, token: string)

  /** One step of the cache: the token handed to the caller, the cache afterwards and the
      requests sent on the way. */
  datatype TokenStep = TokenStep(token: string, tokens: map<string, string>, trace: seq<Request>)

  /** The validation probe of a cached token. */
  function ValidationRequest(c: Client, token: string): Request {
    Request(Get, c.url + BasePath, "", BasicOf(c), Some(token))
  }

  /** The token request for `scope`, authenticated with the client's credentials. */
  function IssuerRequest(c: Client, scope: string): Request {
    Request(Get, c.authURL + "&scope=" + scope, "", Some(c.creds), None)
  }

  /** The validation probe accepted the cached token. */
  predicate Accepted(validation: Reply) {
    validation.Replied? && validation.status == 200
  }

  /** How many times a trace asks the issuer for a token for `scope`. */
  function IssuerCalls(c: Client, scope: string, trace: seq<Request>): nat {
    multiset(trace)[IssuerRequest(c, scope)]
  }

  /** `getToken(scope)`, given the replies the validation probe and the issuer would send.
      Only the replies to requests that are actually sent matter. */
  function GetToken(c: Client, scope: string, validation: Reply, issuer: IssuerReply): (r: TokenStep)
    ensures forall k :: k != scope ==> (k in r.tokens <==> k in c.tokens)
    ensures forall k :: k != scope && k in c.tokens ==> r.tokens[k] == c.tokens[k]
    ensures c.tokens.Keys <= r.tokens.Keys
    ensures r.tokens != c.tokens ==> scope in r.tokens && r.tokens[scope] == r.token
    ensures r.token != "" ==> scope in r.tokens && r.tokens[scope] == r.token
  {
    if scope in c.tokens && Accepted(validation) then
      TokenStep(c.tokens[scope], c.tokens, [ValidationRequest(c, c.tokens[scope])])
    else
      var probe := if scope in c.tokens then [ValidationRequest(c, c.tokens[scope])] else [];
      var trace := probe + [IssuerRequest(c, scope)];
      match issuer
      case IssuerFailed(_) => TokenStep("", c.tokens, trace)
      case IssuerReplied(status, token) =>
        if status != 200 then TokenStep("", c.tokens, trace)
        else TokenStep(token, c.tokens[scope := token], trace)
  }

  /** A cached token that passes validation is handed back; the cache stays as it was and
      the issuer is not contacted. */
  lemma ValidCachedTokenIsReused(c: Client, scope: string, validation: Reply, issuer: IssuerReply)
    requires scope in c.tokens && Accepted(validation)
    ensures var r := GetToken(c, scope, validation, issuer);
      r.token == c.tokens[scope] && r.tokens == c.tokens && IssuerCalls(c, scope, r.trace) == 0
  {
  }

  /** Otherwise the issuer is asked exactly once, after the validation probe when a token was
      cached. */
  lemma IssuerAskedOnce(c: Client, scope: string, validation: Reply, issuer: IssuerReply)
    requires !(scope in c.tokens && Accepted(validation))
    ensures var r := GetToken(c, scope, validation, issuer);
      && IssuerCalls(c, scope, r.trace) == 1
      && r.trace[|r.trace| - 1] == IssuerRequest(c, scope)
      && (scope in c.tokens ==> r.trace == [ValidationRequest(c, c.tokens[scope]), IssuerRequest(c, scope)])
  {
  }

  /** A failed token request (transport error or a status other than 200) yields "" and leaves
      the cache entirely unchanged, a stale entry for `scope` included. */
  lemma FailedIssuerLeavesCache(c: Client, scope: string, validation: Reply, issuer: IssuerReply)
    requires !(scope in c.tokens && Accepted(validation))
    requires issuer.IssuerFailed? || issuer.status != 200
    ensures GetToken(c, scope, validation, issuer).token == ""
    ensures GetToken(c, scope, validation, issuer).tokens == c.tokens
  {
  }

  /** A successful token request stores the new token under `scope`, overwriting a rejected
      one, hands it back, and changes no other entry. */
  lemma NewTokenIsStored(c: Client, scope: string, validation: Reply, token: string)
    requires !(scope in c.tokens && Accepted(validation))
    ensures var r := GetToken(c, scope, validation, IssuerReplied(200, token));
      && r.token == token
      && r.tokens == c.tokens[scope := token]
      && r.tokens.Keys == c.tokens.Keys + {scope}
  {
  }

  /** Two calls for the same scope: once the first left a token for the scope in the cache and
      the second's validation passes, the second reuses it, and the issuer was asked at most
      once over both calls. */
  lemma SecondCallReuses(c: Client, scope: string, v1: Reply, i1: IssuerReply, v2: Reply, i2: IssuerReply)
    requires scope in GetToken(c, scope, v1, i1).tokens
    requires Accepted(v2)
    ensures var first := GetToken(c, scope, v1, i1);
      var second := GetToken(c.(tokens := first.tokens), scope, v2, i2);
      && second.token == first.tokens[scope]
      && second.tokens == first.tokens
      && IssuerCalls(c, scope, first.trace + second.trace) <= 1
  {
    var first := GetToken(c, scope, v1, i1);
    var c2 := c.(tokens := first.tokens);
    var second := GetToken(c2, scope, v2, i2);
    assert IssuerRequest(c2, scope) == IssuerRequest(c, scope);
    if scope in c.tokens && Accepted(v1) {
      ValidCachedTokenIsReused(c, scope, v1, i1);
    } else {
      IssuerAskedOnce(c, scope, v1, i1);
    }
    ValidCachedTokenIsReused(c2, scope, v2, i2);
    assert multiset(first.trace + second.trace) == multiset(first.trace) + multiset(second.trace);
  }

  /** A token that fails validation is replaced by the issuer's new one on the same call. */
  lemma RejectedTokenIsRefreshed(c: Client, scope: string, validation: Reply, token: string)
    requires scope in c.tokens && !Accepted(validation)
    ensures var r := GetToken(c, scope, validation, IssuerReplied(200, token));
      && r.tokens[scope] == token
      && r.trace == [ValidationRequest(c, c.tokens[scope]), IssuerRequest(c, scope)]
  {
  }

  /** A bearer client's token request goes to `<realm>?service=<service>&scope=<scope>` with
      the client's Basic credentials. */
  lemma IssuerURLShape(url: string, creds: Credentials, realm: string, service: string, scope: string)
    requires |realm| >= 5 && "http" <= realm && '"' !in realm && '\n' !in realm
    requires |service| >= 1 && '"' !in service && '\n' !in service
    ensures var c := NewClient(url, creds, ProbeReplied(401, "Bearer realm=\"" + realm + "\",service=\"" + service + "\""));
      && c.Ok?
      && IssuerRequest(c.value, scope).url == realm + "?service=" + service + "&scope=" + scope
      && IssuerRequest(c.value, scope).basic == Some(creds)
  {
    BearerChallenge(url, creds, realm, service);
  }
}

=== FILE: wrappers.dfy ===
/** Failure-carrying datatypes shared by the whole model. */
module Wrappers {

  /** A value that may be absent. */
  datatype Option<+T> = None | Some(value: T)

  /** Either a value or the error that prevented computing it (Go's `(T, error)` pair). */
  datatype Result<+T, +E> = Ok(value: T) | Err(error: E)

  /** Go's bare `error` return: nil or an error value. */
  datatype Outcome<+E> = Pass | Fail(error: E)
}
